=== FILE: README.md ===
# Hold: the app-blocking engine, modelled in Dafny

Hold is an Android app that puts a "hold to unlock" gate in front of apps the user chooses.
When a locked app comes to the foreground, a full-screen overlay appears. It goes away only
after the user holds its button for the configured number of seconds, or presses exit, which
sends them home. This project models the engine's decision logic as pure state-transition
functions and proves properties of it:

- **the locked-app registry** (`LockedAppManager`): a set of package names stored under one
  preference key (`locked_app_manager.dfy`);
- **the foreground monitor** (`AppLockerService.onAccessibilityEvent`): the one-shot grace
  marker `lastUnlockedAppPackage`, the `shouldLock` decision and the single-overlay flag
  `isOverlayShowing` (`app_locker_service.dfy`);
- **the hold-to-unlock session** (`OverlayService`): duration resolution with the −1
  sentinel, press, release, countdown ticks, finish, exit, the delayed stop and `onDestroy`
  (`overlay_service.dfy`);
- **the decisions around the registry**: the install receiver's auto-lock gate
  (`app_install_receiver.dfy`); the permission checks, the accessibility-setting check, the
  installed-app list and the lock/unlock toggle (`main_activity.dfy`); and the list's search
  filter and switch rollback (`list_app_adapter.dfy`);
- **the whole engine** as one sequential event machine over (registry, shared state,
  optional live session), with the invariant "a session is live ⇔ `isOverlayShowing`"
  (`enforcement.dfy`).

Shared pieces live in their own files. `text.dfy` covers Kotlin's `trim`, `lowercase`,
`contains`, `equals(ignoreCase)`, `compareTo` and splitting at ':'. `seqs.dfy` covers
`filter` and subsequences, `numbers.dfy` covers `Int`/`Long` and the integer ceiling, and
`settings.dfy` covers the stored settings and their defaults (5 s hold, 10 min goal, overlay
on, lock new apps on). `wrappers.dfy` holds the option type that stands for Kotlin's
nullable values.

External queries are parameters:
- the default launcher's identity (`isLauncher`);
- application labels;
- the package manager's app list and launch intents;
- the permission queries and the SDK level;
- the registry's per-app duration lookup `getLockedAppDuration`, as `durationOf: string -> Int32`.

Each callback is one atomic step.

Behaviours of the code this model follows:
- the registry is a set of package names;
- a tick shows `ceil(ms / 1000) - 1`;
- the grace marker is set in `onDestroy`, when the overlay is torn down;
- `stopSelf` only asks for the teardown, and `onDestroy` is a later callback; exit cancels
  neither the countdown timer nor a delayed stop already posted, so a finish that arrives
  between exit and teardown marks the unlock successful again and the teardown records it;
- a release leaves the success flag alone, even after the timer has finished;
- names are sorted by `String.compareTo`, which compares UTF-16 code units, so a character
  outside the Basic Multilingual Plane sorts before U+E000–U+FFFF;
- `onStartCommand` does not catch a failure to add the overlay view, so such a failure
  crashes the process; only the process death that follows resets the overlay flag.

## Model

| member | source | states |
|---|---|---|
| `LockedAppManager.GetLockedApps` | app/src/main/java/com/dane/hold/data/LockedAppManager.kt:29-32 | the locked set is the stored set, or empty before the key is first written |
| `LockedAppManager.IsAppLocked` | app/src/main/java/com/dane/hold/data/LockedAppManager.kt:29-36 | an app is locked iff its name is in the stored set; before the key is first written nothing is locked |
| `LockedAppManager.AddLockedApp` | app/src/main/java/com/dane/hold/data/LockedAppManager.kt:15-20 | afterwards the app is locked, every other app keeps its status, and adding an already locked app leaves the set as it was |
| `LockedAppManager.RemoveLockedApp` | app/src/main/java/com/dane/hold/data/LockedAppManager.kt:22-27 | afterwards the app is unlocked whatever the prior state, every other app keeps its status, and removing an absent app leaves the set as it was |
| `LockedAppManager.AddThenRemove` | app/src/main/java/com/dane/hold/data/LockedAppManager.kt:15-27 | locking an unlocked app and unlocking it again gives back the original locked set |
| `LockedAppManager.AddIdempotent` | app/src/main/java/com/dane/hold/data/LockedAppManager.kt:15-20 | locking twice stores the same as locking once |
| `AppLockerService.OnAccessibilityEvent` | app/src/main/java/com/dane/hold/AppLockerService.kt:31-67 | events of another type or without a package change nothing and start nothing; an overlay starts iff the app is locked, the overlay setting is on, the app is not the grace-marked one and no overlay is showing; the flag is raised with the start and never lowered here; a showing overlay blocks any second start; the marker is only cleared, always by a non-launcher other app, never by the launcher nor by the unlocked app's own return, and after a non-launcher app it is empty or that app |
| `AppLockerService.GraceSurvivesLauncherDetours` | app/src/main/java/com/dane/hold/AppLockerService.kt:35-47 | after app p is unlocked, any sequence of p and launcher foregrounds keeps the marker on p and never starts an overlay for p |
| `AppLockerService.GraceRevokedByOtherApp` | app/src/main/java/com/dane/hold/AppLockerService.kt:35-52 | visiting another non-launcher app clears the grace, so the unlocked app is gated again on its next foreground |
| `OverlayService.ResolveHoldSeconds` | app/src/main/java/com/dane/hold/OverlayService.kt:63-68 | the per-app duration is used unless it is −1, then the hold-duration setting (default 5); the result is −1 only if the setting itself holds −1 |
| `OverlayService.OnStartCommand` | app/src/main/java/com/dane/hold/OverlayService.kt:37-75 | a new session takes its package and name from the intent (none and "this app" when the intent is missing), resolves the duration for that package, shows the full seconds, has no timer and no success |
| `OverlayService.TickCountdown` | app/src/main/java/com/dane/hold/OverlayService.kt:114 | the number c shown for a remaining time ms satisfies 1000c < ms ≤ 1000(c+1) |
| `OverlayService.Cancel` | app/src/main/java/com/dane/hold/OverlayService.kt:144 | after `countDownTimer?.cancel()` no timer runs; a timer that was never created stays absent |
| `OverlayService.TickScale` | app/src/main/java/com/dane/hold/OverlayService.kt:118-125 | during a hold the button scale stays within [1, 2) |
| `OverlayService.Handle` | app/src/main/java/com/dane/hold/OverlayService.kt:77-150 | the session's package, name and hold duration never change; a stop is posted only by a finish and withdrawn only by the delayed stop running; ticks leave the timer alone; only `onDestroy` ends the session, and only after `stopSelf`; only exit and a pending delayed stop call `stopSelf`, which is never withdrawn; only exit goes home; only finish sets success and only exit clears it; exit stops neither the timer nor a posted stop; release stops the timer, restores scale 1, the "HOLD" label and the full countdown; a delivered tick shows c with 1000c < ms ≤ 1000(c+1), so 0 ≤ c ≤ seconds − 1; finish shows 0, marks success and posts the stop, even after exit; ticks and finishes of a timer that is not running, a delayed stop never posted and an `onDestroy` never asked for change nothing |
| `OverlayService.OnDestroy` | app/src/main/java/com/dane/hold/OverlayService.kt:173-183 | teardown always lowers the overlay flag; it sets the grace marker to the session's package exactly when the unlock succeeded and otherwise leaves it |
| `OverlayService.RunSession` | app/src/main/java/com/dane/hold/OverlayService.kt:77-183 | any sequence of callbacks keeps the session valid and its package unchanged |
| `OverlayService.FinishedHoldIsTornDown` | app/src/main/java/com/dane/hold/OverlayService.kt:128-136 | once the hold has finished or a stop was asked for, whatever callbacks come first, the delayed stop and `onDestroy` end the session, and the teardown concerns the session's own package |
| `OverlayService.NoUnlockWithoutFinish` | app/src/main/java/com/dane/hold/OverlayService.kt:77-150 | without a timer finish, no sequence of presses, releases, ticks, exits, stops or teardowns marks success, so teardown leaves the grace marker as it was |
| `OverlayService.StopIsFinal` | app/src/main/java/com/dane/hold/OverlayService.kt:92-136 | once `stopSelf` was called, no sequence of callbacks keeps the session from its teardown: it waits for `onDestroy`, and the first one ends it |
| `OverlayService.ExitAfterFinishRevokes` | app/src/main/java/com/dane/hold/OverlayService.kt:92-136 | an exit between the finish and the delayed stop goes home, asks for the teardown, and the teardown leaves the marker as it was |
| `OverlayService.FinishThenDelayedStopUnlocks` | app/src/main/java/com/dane/hold/OverlayService.kt:128-136 | a finish followed by the delayed stop and the teardown ends the session with its package as the grace marker |
| `OverlayService.ExitThenDueFinishUnlocks` | app/src/main/java/com/dane/hold/OverlayService.kt:92-136 | a finish that arrives after exit but before `onDestroy` marks the unlock successful again, so the teardown records the unlock |
| `Numbers.CeilDiv` | app/src/main/java/com/dane/hold/OverlayService.kt:114 | the exact ceiling: the least r with a ≤ b·r |
| `Numbers.SecondsToMillis` | app/src/main/java/com/dane/hold/OverlayService.kt:70 | seconds × 1000L is an exact `Long` multiple of 1000 |
| `AppInstallReceiver.OnReceive` | app/src/main/java/com/dane/hold/AppInstallReceiver.kt:9-24 | a duration write is requested iff there is a context and an intent, the action is package-added, locking new apps is enabled (default on), and the package name is present; it writes the hold-duration setting (default 5) for that package |
| `AppInstallReceiver.DefaultsRequestFiveSecondDuration` | app/src/main/java/com/dane/hold/AppInstallReceiver.kt:14-20 | with nothing configured, a new package makes the receiver request a 5-second duration write for it |
| `MainActivity.CheckPermissionsAndToggle` | app/src/main/java/com/dane/hold/MainActivity.kt:97-114 | success iff unlocking or all permissions granted; failure opens the permission screen and leaves the registry as it was; on success the app's locked status is the requested one; other apps are untouched |
| `MainActivity.IsIgnoringBatteryOptimizations` | app/src/main/java/com/dane/hold/MainActivity.kt:120-127 | true below Android M; from M on, true iff the app is exempt from battery optimisation |
| `MainActivity.HasOverlayPermission` | app/src/main/java/com/dane/hold/MainActivity.kt:129-135 | true below Android M; from M on, true iff the app may draw overlays |
| `MainActivity.AreAllPermissionsGranted` | app/src/main/java/com/dane/hold/MainActivity.kt:116-135 | granted iff (below Android M, or battery-exempt and allowed to draw overlays) and the accessibility service is enabled |
| `MainActivity.IsAccessibilityServiceEnabled` | app/src/main/java/com/dane/hold/MainActivity.kt:141-149 | true iff the class name and the setting are present and some ':'-separated entry equals "package/canonicalName", ignoring case |
| `MainActivity.AnyEqualsIgnoreCase` | app/src/main/java/com/dane/hold/MainActivity.kt:147 | the `any` search is true iff some entry matches ignoring case |
| `MainActivity.ServiceListedIsDelimitedSearch` | app/src/main/java/com/dane/hold/MainActivity.kt:141-148 | for an identifier without ':', the check holds iff ":id:" occurs in ":setting:", both lowercased |
| `MainActivity.LaunchableApps` | app/src/main/java/com/dane/hold/MainActivity.kt:81-89 | only apps with a launch intent are kept, every such app is kept, and every kept entry comes from an installed package; the result is a subsequence of the package manager's list, so its order is kept, and each launchable entry appears exactly as often as there |
| `MainActivity.InsertByName` | app/src/main/java/com/dane/hold/MainActivity.kt:92 | inserting into a list sorted by lowercase name keeps it sorted and adds exactly the new entry |
| `MainActivity.SortByName` | app/src/main/java/com/dane/hold/MainActivity.kt:92 | the result is sorted by lowercase name and is a permutation of the input |
| `MainActivity.SortByNameStable` | app/src/main/java/com/dane/hold/MainActivity.kt:92 | the sort is stable: entries with the same lowercase name keep their relative order |
| `MainActivity.GetInstalledApps` | app/src/main/java/com/dane/hold/MainActivity.kt:76-95 | the list is sorted by lowercase name, is a permutation of the launchable apps, contains only launchable apps and all of them, and apps sharing a lowercase name keep the package manager's order |
| `ListAppAdapter.Create` | app/src/main/java/com/dane/hold/adapter/ListAppAdapter.kt:18-23 | initially the display list is the full list |
| `ListAppAdapter.PerformFiltering` | app/src/main/java/com/dane/hold/adapter/ListAppAdapter.kt:67-81 | no or empty text gives the full list; otherwise exactly the full-list entries whose lowercase name contains the lowercased, trimmed text, each as often as in the full list, as a subsequence of the full list in its order |
| `ListAppAdapter.BlankConstraintKeepsAll` | app/src/main/java/com/dane/hold/adapter/ListAppAdapter.kt:72-76 | whitespace-only text trims to "" and gives the full list |
| `ListAppAdapter.PublishResults` | app/src/main/java/com/dane/hold/adapter/ListAppAdapter.kt:84-89 | a list in the results becomes the display list; missing results, missing values or values that are not a list show an empty list; the full list is untouched |
| `ListAppAdapter.FiltersDoNotCompound` | app/src/main/java/com/dane/hold/adapter/ListAppAdapter.kt:65-91 | a second search gives the same display as searching from the start, always a subsequence of the full list |
| `ListAppAdapter.SwitchAtBind` | app/src/main/java/com/dane/hold/adapter/ListAppAdapter.kt:43 | a row's switch is bound checked iff its app is in the stored locked set |
| `ListAppAdapter.OnCheckedChanged` | app/src/main/java/com/dane/hold/adapter/ListAppAdapter.kt:45-58 | on failure the switch reverts and nothing is announced; on success it stays and the toast names the app as locked when the switch was turned on and as unlocked when it was turned off |
| `ListAppAdapter.SwitchTracksRegistry` | app/src/main/java/com/dane/hold/adapter/ListAppAdapter.kt:37-58 | a switch bound to registry membership and flipped by the user ends up showing whether the app is locked afterwards |
| `Text.Lower` | app/src/main/java/com/dane/hold/adapter/ListAppAdapter.kt:72-75 | lowercasing keeps the length and maps each character on its own, ASCII capitals to small letters |
| `Text.EqualsIgnoreCase` | app/src/main/java/com/dane/hold/MainActivity.kt:147 | two strings are equal ignoring case iff they have the same length and agree character by character after lowercasing |
| `Seqs.Filter` | app/src/main/java/com/dane/hold/adapter/ListAppAdapter.kt:74-76 | `filter` keeps exactly the elements satisfying the predicate, each as often as in the input, and no longer than the input |
| `Text.Trim` | app/src/main/java/com/dane/hold/adapter/ListAppAdapter.kt:72 | the result is the infix left after cutting whitespace only from both ends; it neither starts nor ends with whitespace, and it is empty iff the input is all whitespace |
| `Text.Contains` | app/src/main/java/com/dane/hold/adapter/ListAppAdapter.kt:75 | true iff the needle occurs at some position of the text |
| `Text.Split` | app/src/main/java/com/dane/hold/MainActivity.kt:146 | the segments are ':'-free and join back to the input |
| `Text.SplitJoin` | app/src/main/java/com/dane/hold/MainActivity.kt:146 | splitting a join of ':'-free parts gives the parts back |
| `Text.MemberIffDelimitedOccurrence` | app/src/main/java/com/dane/hold/MainActivity.kt:146-147 | a delimiter-free string is one of the segments iff it occurs wrapped in delimiters in the wrapped join |
| `Text.SurrogatesSortBeforeHighPlane` | app/src/main/java/com/dane/hold/MainActivity.kt:92 | a character outside the Basic Multilingual Plane (U+1F600) sorts before U+FF26, and not the other way round |
| `Text.LexLeIsCodeUnitOrder` | app/src/main/java/com/dane/hold/MainActivity.kt:92 | the name order is exactly lexicographic order on the strings' UTF-16 code units, a proper prefix first, as `String.compareTo` defines it |
| `Text.LexLeTotal` | app/src/main/java/com/dane/hold/MainActivity.kt:92 | any two names are comparable under `compareTo` |
| `Text.LexLeTransitive` | app/src/main/java/com/dane/hold/MainActivity.kt:92 | the `compareTo` order is transitive |
| `Enforcement.Step` | app/src/main/java/com/dane/hold/AppLockerService.kt:50-52 | every event keeps "a session is live ⇔ the overlay flag is up"; only switches write the registry; of the overlay's callbacks only `onDestroy` writes the shared state; an accessibility event never replaces a live session; a session appears only through an accessibility event; a live session ends only through its `onDestroy`, after it asked to stop; the grace marker names a package only after the teardown of a session whose success flag is set, and then it is that session's package |
| `Enforcement.Run` | app/src/main/java/com/dane/hold/OverlayService.kt:173-183 | the session/flag invariant holds after any sequence of events |
| `Enforcement.SingleOverlay` | app/src/main/java/com/dane/hold/AppLockerService.kt:15-20 | from the initial state, the flag is up exactly while one session is live |
| `Enforcement.WalkUnlockedAppPasses` | app/src/main/java/com/dane/hold/AppLockerService.kt:46-50 | on first use, an app that is not locked comes to the foreground and nothing changes: no overlay, no flag, no marker |
| `Enforcement.WalkLockedAppIsGated` | app/src/main/java/com/dane/hold/MainActivity.kt:97-103 | locking an app from the list and opening it starts a five-second overlay |
| `Enforcement.WalkFullHoldUnlocks` | app/src/main/java/com/dane/hold/OverlayService.kt:128-136 | press, finish, delayed stop and teardown remove the overlay and mark the app unlocked |
| `Enforcement.WalkGraceAndOtherApp` | app/src/main/java/com/dane/hold/AppLockerService.kt:35-52 | home and back does not gate the unlocked app again; another locked app is gated normally |
| `Enforcement.SentinelUsesSetting` | app/src/main/java/com/dane/hold/OverlayService.kt:63-70 | a −1 duration with the setting at 10 gives a 10-second hold |

## Left out

- Android plumbing is left out: window-manager views, layout and system-UI flags, swallowing
  the back key, vibration, intents, `startService`, START_STICKY and toasts. "Start overlay",
  "go home" and "ask for teardown" are outcomes of a step; `onDestroy` is an input. A restarted service with no
  intent is modelled as a missing intent.
- Real time is not modelled. `CountDownTimer` scheduling and the 200 ms `postDelayed` are
  events (`Tick`, `Finish`, `DelayedStop`, `Destroy`), so the model does not say when they
  arrive.
- Concurrency is not modelled. The companion variables are updated in atomic sequential
  steps, and thread races are not modelled. Process death, which resets the companion
  variables while a sticky overlay restarts, is out too.
- Presentation failure is not modelled. If `addView` throws, the exception is not caught and
  the app process dies; the companion variables are reset only by that process death, which
  is left out (see above). The model assumes the overlay always appears.
- Durability of the registry is not modelled. `prefs.edit { }` saves with `apply()`, which
  writes to disk asynchronously; the model treats every write as durable at once, and a
  write lost to process death is out of scope.
- The duration store (`getLockedAppDuration`, `setLockedAppDuration`) is not defined in the
  registry shown. The lookup is a parameter, and the install receiver's effect is the write it
  requests; neither changes the locked set here.
- The title and daily-goal texts are left out. Only the countdown's number and the stored
  daily-goal value are modelled.
- `SettingsActivity.kt` (dialogs and switches) and `PermissionActivity.kt` (settings
  intents) are UI only and not part of this model. `AppData`'s icon is opaque and left out.
- OverlayService.Handle: a press while the timer runs starts a new one. The orphaned timer's
  later ticks and finish are not modelled. Ticks and finishes the platform cannot deliver (a
  timer that is not running, or a remaining time outside (0, duration]) are dropped.
- OverlayService.TickScale: the source computes progress and scale in `Float`. The model uses
  exact real arithmetic, so rounding is not modelled.
- Numbers.CeilDiv: `Math.ceil` on a `Double` is modelled as an exact integer ceiling. The two
  agree for every remaining time a timer of an `Int` number of seconds can report.
- MainActivity.SortByName: the sort key `lowercase()` is modelled by ASCII-only case folding
  (see Text.Lower), so names whose non-ASCII letters differ only in case are ordered by their
  original characters rather than by their lowercase forms.
- MainActivity.GetInstalledApps: sorted under the same ASCII-only case folding as
  MainActivity.SortByName.
- ListAppAdapter.PerformFiltering: the search text and the names are lowercased with the
  ASCII-only folding of Text.Lower, so a non-ASCII letter matches only in the case typed.
- MainActivity.IsAccessibilityServiceEnabled: the case-insensitive comparison uses the
  ASCII-only folding of Text.EqualsIgnoreCase. For the ASCII service id of this app, the
  answer differs from the source's only for a segment holding a non-ASCII character whose case partner is an ASCII letter (the Kelvin
  sign U+212A against 'k').
- Text.Lower: `lowercase(Locale.ROOT)` is modelled for ASCII letters only. Other characters
  are left as they are.
- Text.EqualsIgnoreCase: `equals(ignoreCase = true)` is modelled for ASCII letters only.
- Text.Split: `TextUtils.SimpleStringSplitter` is Android library code, not part of this
  model. The model uses a plain split at ':'. The two differ only in empty segments (an empty
  setting, a trailing ':'), and an empty segment never equals "package/canonicalName".

=== FILE: app_install_receiver.dfy ===
/**
  The install receiver: on a package-added broadcast it asks the registry to store the
  default hold duration for the new package. The registry's duration store is not part of
  this model, so the receiver's effect is the write it requests.
*/
module AppInstallReceiver {
  import opened Wrappers
  import opened Numbers
  import Settings

  const ActionPackageAdded := "android.intent.action.PACKAGE_ADDED"

  /** A broadcast intent: its action and `data?.schemeSpecificPart` (the package name). */
  datatype Intent = Intent(action: string, schemeSpecificPart: Option<string>)

  /** A call `setLockedAppDuration(packageName, seconds)`. */
  datatype DurationWrite = DurationWrite(packageName: string, seconds: Int32)

  /** `onReceive`: a write happens exactly for a package-added broadcast that names a package,
      with a context, while locking newly installed apps is enabled; it stores the hold-duration
      setting for that package. */
  function OnReceive(hasContext: bool, intent: Option<Intent>, prefs: Settings.Preferences): (w: Option<DurationWrite>)
    ensures w.Some? <==>
      && hasContext
      && intent.Some?
      && intent.value.action == ActionPackageAdded
      && Settings.LockNewlyInstalled(prefs)
      && intent.value.schemeSpecificPart.Some?
    ensures w.Some? ==>
      w.value == DurationWrite(intent.value.schemeSpecificPart.value, Settings.HoldDurationSeconds(prefs))
  {
    if !hasContext || intent.None? then None
    else if intent.value.action != ActionPackageAdded then None
    else if !Settings.LockNewlyInstalled(prefs) then None
    else
      match intent.value.schemeSpecificPart
      case None => None
      case Some(newPackageName) => Some(DurationWrite(newPackageName, Settings.HoldDurationSeconds(prefs)))
  }

  /** With nothing configured yet, a newly installed app makes the receiver request a
      5-second duration write for it. */
  lemma DefaultsRequestFiveSecondDuration(packageName: string)
    ensures OnReceive(true, Some(Intent(ActionPackageAdded, Some(packageName))), Settings.Fresh)
      == Some(DurationWrite(packageName, 5))
  {
  }
}

=== FILE: app_locker_service.dfy ===
/**
  The foreground monitor: the accessibility service's reaction to a window-state change,
  and the two process-wide variables it shares with the overlay.
*/
module AppLockerService {
  import opened Wrappers
  import opened LockedAppManager
  import Settings

  /** The companion object: the package just unlocked (the one-shot grace marker) and
      whether an overlay is currently showing. */
  datatype SharedState = SharedState(lastUnlockedAppPackage: Option<string>, isOverlayShowing: bool)

  const Initial := SharedState(None, false)

  /** The part of an accessibility event the monitor looks at. */
  datatype AccessibilityEvent =
    | WindowStateChanged(packageName: Option<string>)
    | OtherEventType

  /** The extras on the intent that starts the overlay service. */
  datatype OverlayIntent = OverlayIntent(appName: string, packageName: string)

  /** What the monitor asks of the package manager: the default launcher's identity
      and application labels (`None` when the package cannot be found). */
  datatype Host = Host(isLauncher: string -> bool, applicationLabel: string -> Option<string>)

  const FallbackAppName := "this app"

  datatype MonitorResult = MonitorResult(state: SharedState, start: Option<OverlayIntent>)

  /** The package a window-state-changed event with a package name is about. */
  predicate IsForeground(event: Option<AccessibilityEvent>, p: string) {
    event == Some(WindowStateChanged(Some(p)))
  }

  /** Step 1: the grace marker is dropped on any package other than itself and the launcher. */
  function ClearGrace(st: SharedState, packageName: string, isLauncher: string -> bool): SharedState {
    if st.lastUnlockedAppPackage != Some(packageName) && !isLauncher(packageName) then
      st.(lastUnlockedAppPackage := None)
    else
      st
  }

  /** `onAccessibilityEvent`: clear the grace marker, decide whether the app must be locked,
      and start an overlay only when none is showing, raising the flag first. */
  function OnAccessibilityEvent(
    st: SharedState, event: Option<AccessibilityEvent>,
    store: Store, prefs: Settings.Preferences, host: Host): (r: MonitorResult)
    // events of another type, or without a package name, do nothing at all
    ensures (forall p :: !IsForeground(event, p)) ==> r == MonitorResult(st, None)
    // an overlay starts exactly for a locked, not just-unlocked app while none is showing
    ensures forall p :: IsForeground(event, p) ==>
      (r.start.Some? <==>
        && IsAppLocked(store, p)
        && Settings.OverlayEnabled(prefs)
        && st.lastUnlockedAppPackage != Some(p)
        && !st.isOverlayShowing)
    ensures forall p :: IsForeground(event, p) && r.start.Some? ==>
      r.start.value == OverlayIntent(host.applicationLabel(p).GetOr(FallbackAppName), p)
    // the single-overlay guard
    ensures r.state.isOverlayShowing <==> st.isOverlayShowing || r.start.Some?
    ensures st.isOverlayShowing ==> r.start.None?
    // the grace marker is only ever cleared, never set
    ensures r.state.lastUnlockedAppPackage in {None, st.lastUnlockedAppPackage}
    ensures forall p :: IsForeground(event, p) && !host.isLauncher(p) ==>
      r.state.lastUnlockedAppPackage in {None, Some(p)}
    ensures forall p :: IsForeground(event, p) && host.isLauncher(p) ==>
      r.state.lastUnlockedAppPackage == st.lastUnlockedAppPackage
    // the unlocked app's own return keeps its grace
    ensures forall p :: IsForeground(event, p) && st.lastUnlockedAppPackage == Some(p) ==>
      r.state.lastUnlockedAppPackage == st.lastUnlockedAppPackage
    ensures forall p :: IsForeground(event, p) && !host.isLauncher(p) && st.lastUnlockedAppPackage != Some(p) ==>
      r.state.lastUnlockedAppPackage == None
  {
    match event
    case Some(WindowStateChanged(Some(packageName))) =>
      assert IsForeground(event, packageName);
      var cleared := ClearGrace(st, packageName, host.isLauncher);
      var shouldLock :=
        IsAppLocked(store, packageName)
        && cleared.lastUnlockedAppPackage != Some(packageName)
        && Settings.OverlayEnabled(prefs);
      if shouldLock && !cleared.isOverlayShowing then
        var appName := host.applicationLabel(packageName).GetOr(FallbackAppName);
        MonitorResult(cleared.(isOverlayShowing := true), Some(OverlayIntent(appName, packageName)))
      else
        MonitorResult(cleared, None)
    case _ => MonitorResult(st, None)
  }

  /** The monitor fed one window-state change per package, collecting the overlays it starts
      (no overlay is torn down in between). */
  function RunMonitor(
    st: SharedState, packages: seq<string>,
    store: Store, prefs: Settings.Preferences, host: Host): (SharedState, seq<OverlayIntent>)
    decreases |packages|
  {
    if |packages| == 0 then (st, [])
    else
      var r := OnAccessibilityEvent(st, Some(WindowStateChanged(Some(packages[0]))), store, prefs, host);
      var (last, started) := RunMonitor(r.state, packages[1..], store, prefs, host);
      (last, (if r.start.Some? then [r.start.value] else []) + started)
  }

  /** The grace window: after `p` is unlocked, any mix of `p` and the launcher in the
      foreground keeps the marker on `p`, and `p` never gets an overlay. */
  lemma {:induction false} GraceSurvivesLauncherDetours(
    st: SharedState, p: string, packages: seq<string>,
    store: Store, prefs: Settings.Preferences, host: Host)
    requires st.lastUnlockedAppPackage == Some(p)
    requires forall k :: 0 <= k < |packages| ==> packages[k] == p || host.isLauncher(packages[k])
    ensures RunMonitor(st, packages, store, prefs, host).0.lastUnlockedAppPackage == Some(p)
    ensures forall i :: 0 <= i < |RunMonitor(st, packages, store, prefs, host).1| ==>
      RunMonitor(st, packages, store, prefs, host).1[i].packageName != p
    decreases |packages|
  {
    if |packages| > 0 {
      var r := OnAccessibilityEvent(st, Some(WindowStateChanged(Some(packages[0]))), store, prefs, host);
      assert IsForeground(Some(WindowStateChanged(Some(packages[0]))), packages[0]);
      GraceSurvivesLauncherDetours(r.state, p, packages[1..], store, prefs, host);
    }
  }

  /** Visiting any other non-launcher app revokes the grace: the unlocked app locks again. */
  lemma GraceRevokedByOtherApp(
    st: SharedState, p: string, q: string,
    store: Store, prefs: Settings.Preferences, host: Host)
    requires st.lastUnlockedAppPackage == Some(p) && !st.isOverlayShowing
    requires q != p && !host.isLauncher(q) && !IsAppLocked(store, q)
    requires IsAppLocked(store, p) && Settings.OverlayEnabled(prefs)
    ensures RunMonitor(st, [q, p], store, prefs, host).1 ==
      [OverlayIntent(host.applicationLabel(p).GetOr(FallbackAppName), p)]
  {
    var r1 := OnAccessibilityEvent(st, Some(WindowStateChanged(Some(q))), store, prefs, host);
    assert IsForeground(Some(WindowStateChanged(Some(q))), q);
    var r2 := OnAccessibilityEvent(r1.state, Some(WindowStateChanged(Some(p))), store, prefs, host);
    assert IsForeground(Some(WindowStateChanged(Some(p))), p);
    assert r1.start == None && r1.state.lastUnlockedAppPackage == None;
    assert r2.start == Some(OverlayIntent(host.applicationLabel(p).GetOr(FallbackAppName), p));
    assert [q, p][1..] == [p];
    assert [p][1..] == [];
    assert RunMonitor(r2.state, [], store, prefs, host).1 == [];
    assert RunMonitor(r1.state, [p], store, prefs, host).1 == [r2.start.value];
  }
}

=== FILE: data.dfy ===
/** The app entries the list screen shows (the icon is opaque to the logic and left out). */
module Data {

  datatype AppData = AppData(name: string, packageName: string)
}

=== FILE: enforcement.dfy ===
/**
  The whole engine as one sequential state machine: the locked-app registry, the shared
  state of the accessibility service, and at most one live overlay session. Accessibility
  events, callbacks of the live overlay and flips of a list switch are its events.
*/
module Enforcement {
  import opened Wrappers
  import opened Numbers
  import opened LockedAppManager
  import opened AppLockerService
  import opened OverlayService
  import MainActivity
  import Settings

  datatype System = System(store: Store, shared: SharedState, session: Option<Session>)

  /** Everything the engine reads but does not own: the settings, the package manager's
      answers, and the registry's per-app duration lookup (-1 for "use the setting"). */
  datatype Env = Env(prefs: Settings.Preferences, host: Host, durationOf: string -> Int32)

  datatype Event =
    | AccessibilityEventArrived(event: Option<AccessibilityEvent>)
    | OverlayInput(input: Input)
    | SwitchFlipped(packageName: string, isChecked: bool, probe: MainActivity.PermissionProbe)

  const Boot := System(LockedAppManager.Empty, AppLockerService.Initial, None)

  /** The overlay flag is up exactly while a session is live, and a live session is valid. */
  ghost predicate Inv(sys: System) {
    && (sys.session.Some? <==> sys.shared.isOverlayShowing)
    && (sys.session.Some? ==> Valid(sys.session.value))
  }

  /** One event. Starting an overlay runs `onStartCommand` on the intent the monitor built;
      a session that asked to stop lives on until its `onDestroy` input arrives. */
  function Step(sys: System, env: Env, ev: Event): (r: System)
    requires Inv(sys)
    ensures Inv(r)
    // only the list's switches write the registry; they touch nothing else
    ensures !ev.SwitchFlipped? ==> r.store == sys.store
    ensures ev.SwitchFlipped? ==> r.shared == sys.shared && r.session == sys.session
    // of the overlay's callbacks only `onDestroy` writes the shared state
    ensures ev.OverlayInput? && ev.input != Destroy ==> r.shared == sys.shared
    // a live session is never replaced by an accessibility event
    ensures sys.session.Some? && ev.AccessibilityEventArrived? ==> r.session == sys.session
    // a session appears only through an accessibility event
    ensures sys.session.None? && r.session.Some? ==> ev.AccessibilityEventArrived?
    // a session ends only through its `onDestroy`, after it asked to stop
    ensures sys.session.Some? && r.session.None? ==>
      ev == OverlayInput(Destroy) && sys.session.value.stopRequested
    // the grace marker names a package only after the teardown of a session whose hold
    // finished, and then it is that session's package
    ensures r.shared.lastUnlockedAppPackage.Some? && r.shared.lastUnlockedAppPackage != sys.shared.lastUnlockedAppPackage ==>
      && ev == OverlayInput(Destroy)
      && sys.session.Some?
      && sys.session.value.stopRequested
      && sys.session.value.unlockSuccessful
      && r.shared.lastUnlockedAppPackage == sys.session.value.currentPackageName
  {
    match ev
    case AccessibilityEventArrived(event) =>
      var m := OnAccessibilityEvent(sys.shared, event, sys.store, env.prefs, env.host);
      if m.start.Some? then
        System(sys.store, m.state, Some(OnStartCommand(m.start, env.durationOf, env.prefs)))
      else
        sys.(shared := m.state)
    case OverlayInput(input) =>
      if sys.session.None? then sys
      else
        (match Handle(sys.session.value, input)
         case Live(next, _) => sys.(session := Some(next))
         case Destroyed(last) => System(sys.store, OnDestroy(sys.shared, last), None))
    case SwitchFlipped(packageName, isChecked, probe) =>
      sys.(store := MainActivity.CheckPermissionsAndToggle(sys.store, packageName, isChecked, probe).store)
  }

  /** A run of events from a state satisfying the invariant keeps it. */
  function Run(sys: System, env: Env, events: seq<Event>): (r: System)
    requires Inv(sys)
    ensures Inv(r)
    decreases |events|
  {
    if |events| == 0 then sys else Run(Step(sys, env, events[0]), env, events[1..])
  }

  /** At most one overlay, ever: whatever happens, while a session is live the flag is up,
      so no accessibility event can start another. */
  lemma {:induction false} SingleOverlay(env: Env, events: seq<Event>)
    ensures var r := Run(Boot, env, events);
      r.session.Some? <==> r.shared.isOverlayShowing
  {
  }

  // ---------------------------------------------------------------------------
  // The walk-through of a first use
  // ---------------------------------------------------------------------------

  const Social := "com.example.social"
  const Video := "com.example.video"
  const Launcher := "com.example.launcher"

  /** A device where every permission is in place (before Android M only the accessibility
      service matters) and the locker service is enabled. */
  const AllGranted := MainActivity.PermissionProbe(22, false, false, "h", Some("S"), Some("h/S"))

  function Foreground(p: string): Event {
    AccessibilityEventArrived(Some(WindowStateChanged(Some(p))))
  }

  /** Nothing configured; the launcher is `Launcher`; every app uses the default duration. */
  function FirstUse(): Env {
    Env(Settings.Fresh, Host(p => p == Launcher, p => None), p => UseDefaultDuration)
  }

  lemma AllGrantedGrants()
    ensures MainActivity.AreAllPermissionsGranted(AllGranted)
  {
  }

  /** The overlay started for `p` on first use. */
  function FirstSession(p: string): Session {
    OnStartCommand(Some(OverlayIntent(FallbackAppName, p)), FirstUse().durationOf, Settings.Fresh)
  }

  /** An app that is not locked is not gated. */
  lemma WalkUnlockedAppPasses()
    ensures Step(Boot, FirstUse(), Foreground(Social)) == Boot
  {
  }

  /** Locking it from the list, then opening it, gates it for the default five seconds. */
  lemma WalkLockedAppIsGated()
    ensures var s := Step(Boot, FirstUse(), SwitchFlipped(Social, true, AllGranted));
      && s == System(Store(Some({Social})), SharedState(None, false), None)
      && Step(s, FirstUse(), Foreground(Social)) ==
         System(Store(Some({Social})), SharedState(None, true), Some(FirstSession(Social)))
      && FirstSession(Social).holdDurationSeconds == 5
  {
    AllGrantedGrants();
    assert GetLockedApps(Boot.store) + {Social} == {Social};
    assert IsForeground(Some(WindowStateChanged(Some(Social))), Social);
  }

  /** A full hold unlocks it: the overlay goes and the grace marker names it. */
  lemma WalkFullHoldUnlocks()
    ensures var s := System(Store(Some({Social})), SharedState(None, true), Some(FirstSession(Social)));
      var env := FirstUse();
      var held := Step(Step(s, env, OverlayInput(Press)), env, OverlayInput(Finish));
      Step(Step(held, env, OverlayInput(DelayedStop)), env, OverlayInput(Destroy))
        == System(Store(Some({Social})), SharedState(Some(Social), false), None)
  {
  }

  /** Going home and back does not gate it again; another locked app is gated normally. */
  lemma WalkGraceAndOtherApp()
    ensures var s := System(Store(Some({Social})), SharedState(Some(Social), false), None);
      var env := FirstUse();
      && Step(Step(s, env, Foreground(Launcher)), env, Foreground(Social)) == s
      && Step(Step(s, env, SwitchFlipped(Video, true, AllGranted)), env, Foreground(Video))
           == System(Store(Some({Social, Video})), SharedState(None, true), Some(FirstSession(Video)))
  {
    AllGrantedGrants();
    assert {Social} + {Video} == {Social, Video};
    assert IsForeground(Some(WindowStateChanged(Some(Launcher))), Launcher);
    assert IsForeground(Some(WindowStateChanged(Some(Social))), Social);
    assert IsForeground(Some(WindowStateChanged(Some(Video))), Video);
  }

  /** A sentinel duration with the hold-duration setting at ten seconds starts a ten-second hold. */
  lemma SentinelUsesSetting(p: string)
    ensures var prefs := Settings.Preferences(None, Some(10), None, None);
      OnStartCommand(Some(OverlayIntent(p, p)), q => UseDefaultDuration, prefs).holdDurationSeconds == 10
  {
  }
}

=== FILE: list_app_adapter.dfy ===
/**
  The app list's adapter: the searchable display list drawn from the full list, and each
  row's lock switch, which shows the registry and reverts when a lock request fails.
*/
module ListAppAdapter {
  import opened Wrappers
  import opened Text
  import opened Seqs
  import opened Data
  import opened LockedAppManager
  import MainActivity

  datatype Adapter = Adapter(fullAppList: seq<AppData>, displayList: seq<AppData>)

  /** The adapter as constructed: everything is displayed. */
  function Create(fullAppList: seq<AppData>): (a: Adapter)
    ensures a.fullAppList == fullAppList
    ensures a.displayList == a.fullAppList
  {
    Adapter(fullAppList, fullAppList)
  }

  /** The search text as matched: lowercased, then trimmed. */
  function FilterPattern(constraint: string): string {
    Trim(Lower(constraint))
  }

  /** Whether an app's lowercased name contains the pattern. */
  predicate NameMatches(pattern: string, app: AppData) {
    Contains(Lower(app.name), pattern)
  }

  /** `performFiltering`: no or empty search text gives the full list; otherwise the entries
      of the full list, in order, whose lowercased name contains the trimmed, lowercased text. */
  function PerformFiltering(fullAppList: seq<AppData>, constraint: Option<string>): (r: seq<AppData>)
    ensures constraint.None? || constraint.value == "" ==> r == fullAppList
    ensures forall i :: 0 <= i < |r| ==> r[i] in fullAppList
    ensures constraint.Some? ==> forall i :: 0 <= i < |r| ==> NameMatches(FilterPattern(constraint.value), r[i])
    ensures constraint.Some? ==> forall i :: 0 <= i < |fullAppList| && NameMatches(FilterPattern(constraint.value), fullAppList[i]) ==>
      fullAppList[i] in r
    // each matching entry appears as often as in the full list, each other one not at all
    ensures constraint.Some? && constraint.value != "" ==> forall x ::
      multiset(r)[x] == (if NameMatches(FilterPattern(constraint.value), x) then multiset(fullAppList)[x] else 0)
    ensures IsSubsequence(r, fullAppList)
  {
    if constraint.None? || constraint.value == "" then
      SubsequenceOfSelf(fullAppList);
      fullAppList
    else
      var pattern := FilterPattern(constraint.value);
      var r := Filter(fullAppList, app => NameMatches(pattern, app));
      FilterIsSubsequence(fullAppList, app => NameMatches(pattern, app));
      r
  }

  /** A search text of whitespace only matches every app. */
  lemma BlankConstraintKeepsAll(fullAppList: seq<AppData>, constraint: string)
    requires forall k :: 0 <= k < |constraint| ==> IsWhitespace(constraint[k])
    ensures PerformFiltering(fullAppList, Some(constraint)) == fullAppList
  {
    if constraint != "" {
      var pattern := FilterPattern(constraint);
      TrimBlank(Lower(constraint));
      forall i | 0 <= i < |fullAppList| ensures NameMatches(pattern, fullAppList[i]) {
        ContainsEmpty(Lower(fullAppList[i].name));
      }
      FilterKeepsAll(fullAppList, app => NameMatches(pattern, app));
    }
  }

  /** The `values` of the filter results as `publishResults` sees them. The cast to
      `List<AppData>` is unchecked, so any list passes it; only a value that is not a list
      at all fails it (`NotAnAppList`). */
  datatype ResultValues = NullValues | AppList(apps: seq<AppData>) | NotAnAppList

  /** `publishResults`: show the list the results carry; show nothing when there are no
      results, no values, or values that are not a list. */
  function PublishResults(a: Adapter, results: Option<ResultValues>): (r: Adapter)
    ensures r.fullAppList == a.fullAppList
    ensures results.Some? && results.value.AppList? ==> r.displayList == results.value.apps
    ensures !(results.Some? && results.value.AppList?) ==> r.displayList == []
  {
    match results
    case Some(AppList(apps)) => a.(displayList := apps)
    case _ => a.(displayList := [])
  }

  /** `filter.filter(constraint)`: filter the full list and publish the result. */
  function ApplyFilter(a: Adapter, constraint: Option<string>): Adapter {
    PublishResults(a, Some(AppList(PerformFiltering(a.fullAppList, constraint))))
  }

  /** Searches never compound: each one starts again from the full list. */
  lemma {:induction false} FiltersDoNotCompound(a: Adapter, first: Option<string>, second: Option<string>)
    ensures ApplyFilter(ApplyFilter(a, first), second) == ApplyFilter(a, second)
    ensures IsSubsequence(ApplyFilter(a, second).displayList, a.fullAppList)
  {
  }

  // ---------------------------------------------------------------------------
  // The lock switch of one row
  // ---------------------------------------------------------------------------

  /** The switch as bound: checked exactly when the row's app is locked. */
  function SwitchAtBind(a: Adapter, store: Store, position: nat): (checked: bool)
    requires position < |a.displayList|
    ensures checked <==> store.lockedAppSet.Some? && a.displayList[position].packageName in store.lockedAppSet.value
  {
    IsAppLocked(store, a.displayList[position].packageName)
  }

  /** The toast shown after a successful request. */
  datatype Notice = NowLocked(appName: string) | NowUnlocked(appName: string)

  /** The switch's state, the registry, and the toast after the user flips the switch. The
      revert happens inside the change listener, so the platform does not report it again. */
  datatype SwitchOutcome = SwitchOutcome(checked: bool, store: Store, notice: Option<Notice>)

  /** The change listener: ask for the lock or unlock; on failure put the switch back,
      on success keep it and announce the new state. */
  function OnCheckedChanged(
    store: Store, app: AppData, isChecked: bool, probe: MainActivity.PermissionProbe): (r: SwitchOutcome)
    ensures var t := MainActivity.CheckPermissionsAndToggle(store, app.packageName, isChecked, probe);
      && r.store == t.store
      && (t.success ==>
            r.checked == isChecked &&
            r.notice == Some(if isChecked then NowLocked(app.name) else NowUnlocked(app.name)))
      && (!t.success ==> r.checked == !isChecked && r.notice.None?)
  {
    var t := MainActivity.CheckPermissionsAndToggle(store, app.packageName, isChecked, probe);
    if !t.success then SwitchOutcome(!isChecked, t.store, None)
    else SwitchOutcome(isChecked, t.store, Some(if isChecked then NowLocked(app.name) else NowUnlocked(app.name)))
  }

  /** The switch never lies: flipped from the state it was bound with, it ends up showing
      whether the app is locked afterwards, whether the request succeeded or not. */
  lemma SwitchTracksRegistry(
    a: Adapter, store: Store, position: nat, probe: MainActivity.PermissionProbe)
    requires position < |a.displayList|
    ensures var app := a.displayList[position];
      var r := OnCheckedChanged(store, app, !SwitchAtBind(a, store, position), probe);
      r.checked == IsAppLocked(r.store, app.packageName)
  {
  }
}

=== FILE: locked_app_manager.dfy ===
/**
  The locked-app registry: one string set stored under a single preference key. An app is
  locked exactly when its package name is in the set; every change rewrites the whole set.
*/
module LockedAppManager {
  import opened Wrappers

  /** The "LockedAppsPrefs" file as far as the registry is concerned: the value stored under
      "locked_app_set", or `None` while that key has never been written. */
  datatype Store = Store(lockedAppSet: Option<set<string>>)

  const Empty := Store(None)

  /** `getLockedApps`: the stored set, an absent key reading as the empty set. */
  function GetLockedApps(st: Store): (r: set<string>)
    ensures st.lockedAppSet.Some? ==> r == st.lockedAppSet.value
    ensures st.lockedAppSet.None? ==> r == {}
  {
    st.lockedAppSet.GetOr({})
  }

  /** `isAppLocked`: membership in the stored set; nothing is locked before the first write. */
  function IsAppLocked(st: Store, packageName: string): (r: bool)
    ensures r <==> st.lockedAppSet.Some? && packageName in st.lockedAppSet.value
    ensures st.lockedAppSet.None? ==> !r
  {
    packageName in GetLockedApps(st)
  }

  /** `addLockedApp`: read the set, add one name, write the set back. */
  function AddLockedApp(st: Store, packageName: string): (r: Store)
    ensures r.lockedAppSet.Some?
    ensures IsAppLocked(r, packageName)
    ensures forall q :: q != packageName ==> (IsAppLocked(r, q) <==> IsAppLocked(st, q))
    ensures IsAppLocked(st, packageName) ==> GetLockedApps(r) == GetLockedApps(st)
  {
    Store(Some(GetLockedApps(st) + {packageName}))
  }

  /** `removeLockedApp`: read the set, drop one name, write the set back. */
  function RemoveLockedApp(st: Store, packageName: string): (r: Store)
    ensures r.lockedAppSet.Some?
    ensures !IsAppLocked(r, packageName)
    ensures forall q :: q != packageName ==> (IsAppLocked(r, q) <==> IsAppLocked(st, q))
    ensures !IsAppLocked(st, packageName) ==> GetLockedApps(r) == GetLockedApps(st)
  {
    Store(Some(GetLockedApps(st) - {packageName}))
  }

  /** Locking an app that was not locked and unlocking it again restores the locked set.
      (The storage itself may go from "never written" to "an empty set".) */
  lemma AddThenRemove(st: Store, packageName: string)
    requires !IsAppLocked(st, packageName)
    ensures GetLockedApps(RemoveLockedApp(AddLockedApp(st, packageName), packageName)) == GetLockedApps(st)
  {
  }

  /** Locking twice is locking once. */
  lemma AddIdempotent(st: Store, packageName: string)
    ensures AddLockedApp(AddLockedApp(st, packageName), packageName) == AddLockedApp(st, packageName)
  {
  }
}

=== FILE: main_activity.dfy ===
/**
  The main screen's decisions: the installed-app list (launchable apps sorted by lowercase
  name), the permission checks, and locking or unlocking an app from its switch.
*/
module MainActivity {
  import opened Wrappers
  import opened Text
  import opened Seqs
  import opened Data
  import opened LockedAppManager

  // ---------------------------------------------------------------------------
  // Installed apps
  // ---------------------------------------------------------------------------

  /** An installed application as the package manager reports it: its package name and label. */
  datatype InstalledApp = InstalledApp(packageName: string, appLabel: string)

  function ToAppData(p: InstalledApp): AppData {
    AppData(p.appLabel, p.packageName)
  }

  /** The sort key: the lowercased app name. */
  function NameKey(a: AppData): string {
    Lower(a.name)
  }

  predicate SortedByName(s: seq<AppData>) {
    forall i, j :: 0 <= i < j < |s| ==> LexLe(NameKey(s[i]), NameKey(s[j]))
  }

  /** The entries of `s` whose sort key is `k`, in order. */
  function WithKey(s: seq<AppData>, k: string): (r: seq<AppData>)
    ensures forall i :: 0 <= i < |r| ==> NameKey(r[i]) == k
  {
    if |s| == 0 then []
    else if NameKey(s[0]) == k then [s[0]] + WithKey(s[1..], k)
    else WithKey(s[1..], k)
  }

  /** Insert `x` before the first entry whose key is not below its own. */
  function InsertByName(x: AppData, s: seq<AppData>): (r: seq<AppData>)
    requires SortedByName(s)
    ensures SortedByName(r)
    ensures multiset(r) == multiset(s) + multiset{x}
    decreases |s|
  {
    if |s| == 0 then [x]
    else if LexLe(NameKey(x), NameKey(s[0])) then
      forall j | 0 <= j < |s| ensures LexLe(NameKey(x), NameKey(s[j])) {
        if j > 0 {
          LexLeTransitive(NameKey(x), NameKey(s[0]), NameKey(s[j]));
        }
      }
      [x] + s
    else
      var rest := InsertByName(x, s[1..]);
      LexLeTotal(NameKey(x), NameKey(s[0]));
      LowerBoundKept(NameKey(s[0]), x, s[1..], rest);
      assert s == [s[0]] + s[1..];
      [s[0]] + rest
  }

  /** A key below `x`'s and below every key of `t` is below every key of a rearrangement
      of `t` with `x` added. */
  lemma LowerBoundKept(b: string, x: AppData, t: seq<AppData>, rest: seq<AppData>)
    requires multiset(rest) == multiset(t) + multiset{x}
    requires LexLe(b, NameKey(x))
    requires forall j :: 0 <= j < |t| ==> LexLe(b, NameKey(t[j]))
    ensures forall j :: 0 <= j < |rest| ==> LexLe(b, NameKey(rest[j]))
  {
    forall j | 0 <= j < |rest| ensures LexLe(b, NameKey(rest[j])) {
      assert rest[j] in multiset(rest);
      if rest[j] != x {
        assert rest[j] in multiset(t);
        var i :| 0 <= i < |t| && t[i] == rest[j];
      }
    }
  }

  /** Insertion keeps every other key's entries in their order, with `x` ahead of those of its own key. */
  lemma {:induction false} InsertByNameStable(x: AppData, s: seq<AppData>, k: string)
    requires SortedByName(s)
    ensures WithKey(InsertByName(x, s), k) == (if NameKey(x) == k then [x] else []) + WithKey(s, k)
    decreases |s|
  {
    if |s| == 0 {
      assert InsertByName(x, s) == [x];
      assert [x][1..] == [];
    } else if LexLe(NameKey(x), NameKey(s[0])) {
      assert InsertByName(x, s) == [x] + s;
      assert ([x] + s)[1..] == s;
    } else {
      var rest := InsertByName(x, s[1..]);
      assert InsertByName(x, s) == [s[0]] + rest;
      assert ([s[0]] + rest)[1..] == rest;
      InsertByNameStable(x, s[1..], k);
      LexLeReflexive(NameKey(x));
      assert NameKey(s[0]) != NameKey(x);
    }
  }

  /** `sortBy { it.name.lowercase() }`: a stable sort by lowercased name. */
  function SortByName(s: seq<AppData>): (r: seq<AppData>)
    ensures SortedByName(r)
    ensures multiset(r) == multiset(s)
    decreases |s|
  {
    if |s| == 0 then []
    else
      assert s == [s[0]] + s[1..];
      InsertByName(s[0], SortByName(s[1..]))
  }

  /** The sort is stable: the entries sharing a name keep their relative order. */
  lemma {:induction false} SortByNameStable(s: seq<AppData>, k: string)
    ensures WithKey(SortByName(s), k) == WithKey(s, k)
    decreases |s|
  {
    if |s| > 0 {
      SortByNameStable(s[1..], k);
      InsertByNameStable(s[0], SortByName(s[1..]), k);
    }
  }

  /** Every installed application as an `AppData`, in the package manager's order. */
  function AsAppData(packages: seq<InstalledApp>): (r: seq<AppData>)
    ensures |r| == |packages|
    ensures forall j :: 0 <= j < |packages| ==> r[j] == ToAppData(packages[j])
  {
    seq(|packages|, j requires 0 <= j < |packages| => ToAppData(packages[j]))
  }

  /** The installed apps that have a launch intent, each as often as the package manager
      lists it, in the package manager's order. */
  function LaunchableApps(packages: seq<InstalledApp>, hasLaunchIntent: string -> bool): (r: seq<AppData>)
    ensures forall i :: 0 <= i < |r| ==> hasLaunchIntent(r[i].packageName)
    ensures forall j :: 0 <= j < |packages| && hasLaunchIntent(packages[j].packageName) ==>
      ToAppData(packages[j]) in r
    ensures forall a :: a in r ==> exists j :: 0 <= j < |packages| && ToAppData(packages[j]) == a
    // in order, and with the multiplicity the loop gives each launchable entry
    ensures IsSubsequence(r, AsAppData(packages))
    ensures forall a ::
      multiset(r)[a] == (if hasLaunchIntent(a.packageName) then multiset(AsAppData(packages))[a] else 0)
  {
    var all := AsAppData(packages);
    var launchable := (a: AppData) => hasLaunchIntent(a.packageName);
    FilterIsSubsequence(all, launchable);
    var r := Filter(all, launchable);
    assert forall a :: a in r ==> exists j :: 0 <= j < |packages| && ToAppData(packages[j]) == a by {
      forall a | a in r ensures exists j :: 0 <= j < |packages| && ToAppData(packages[j]) == a {
        var j :| 0 <= j < |all| && all[j] == a;
      }
    }
    r
  }

  /** `getInstalledApps`: the launchable apps, sorted by lowercased name. */
  function GetInstalledApps(packages: seq<InstalledApp>, hasLaunchIntent: string -> bool): (r: seq<AppData>)
    ensures SortedByName(r)
    ensures multiset(r) == multiset(LaunchableApps(packages, hasLaunchIntent))
    ensures forall i :: 0 <= i < |r| ==> hasLaunchIntent(r[i].packageName)
    ensures forall j :: 0 <= j < |packages| && hasLaunchIntent(packages[j].packageName) ==>
      ToAppData(packages[j]) in r
    // `sortBy` is stable: apps with the same lowercase name stay in the package manager's order
    ensures forall k :: WithKey(r, k) == WithKey(LaunchableApps(packages, hasLaunchIntent), k)
  {
    var launchable := LaunchableApps(packages, hasLaunchIntent);
    var r := SortByName(launchable);
    forall k ensures WithKey(r, k) == WithKey(launchable, k) {
      SortByNameStable(launchable, k);
    }
    forall i | 0 <= i < |r| ensures hasLaunchIntent(r[i].packageName) {
      assert r[i] in multiset(launchable);
    }
    forall j | 0 <= j < |packages| && hasLaunchIntent(packages[j].packageName)
      ensures ToAppData(packages[j]) in r
    {
      assert ToAppData(packages[j]) in multiset(launchable);
    }
    r
  }

  // ---------------------------------------------------------------------------
  // Permissions
  // ---------------------------------------------------------------------------

  /** `Build.VERSION_CODES.M`. */
  const VersionCodeM := 23

  /** What the permission checks read from the platform. */
  datatype PermissionProbe = PermissionProbe(
    sdkInt: int,
    ignoringBatteryOptimizations: bool,      // PowerManager.isIgnoringBatteryOptimizations
    canDrawOverlays: bool,                   // Settings.canDrawOverlays
    packageName: string,                     // this app's package
    serviceCanonicalName: Option<string>,    // AppLockerService's canonical class name
    enabledAccessibilityServices: Option<string>)  // Settings.Secure ENABLED_ACCESSIBILITY_SERVICES

  function IsIgnoringBatteryOptimizations(p: PermissionProbe): (r: bool)
    ensures p.sdkInt < VersionCodeM ==> r
    ensures p.sdkInt >= VersionCodeM ==> (r <==> p.ignoringBatteryOptimizations)
  {
    if p.sdkInt >= VersionCodeM then p.ignoringBatteryOptimizations else true
  }

  function HasOverlayPermission(p: PermissionProbe): (r: bool)
    ensures p.sdkInt < VersionCodeM ==> r
    ensures p.sdkInt >= VersionCodeM ==> (r <==> p.canDrawOverlays)
  {
    if p.sdkInt >= VersionCodeM then p.canDrawOverlays else true
  }

  /** Some element of `segments` equals `service`, ignoring case (`any { ... }`). */
  function AnyEqualsIgnoreCase(segments: seq<string>, service: string): (r: bool)
    ensures r <==> exists k :: 0 <= k < |segments| && EqualsIgnoreCase(segments[k], service)
    decreases |segments|
  {
    if |segments| == 0 then false
    else if EqualsIgnoreCase(segments[0], service) then true
    else
      var r := AnyEqualsIgnoreCase(segments[1..], service);
      assert forall k :: 1 <= k < |segments| ==> segments[k] == segments[1..][k - 1];
      r
  }

  /** Some ':'-separated entry of `setting` equals `service`, ignoring case. */
  ghost predicate ServiceListed(setting: string, service: string) {
    exists k :: 0 <= k < |Split(setting, ':')| && EqualsIgnoreCase(Split(setting, ':')[k], service)
  }

  /** The accessibility-service identifier "package/canonicalName". */
  function ServiceId(packageName: string, canonicalName: string): string {
    packageName + "/" + canonicalName
  }

  /** `isAccessibilityServiceEnabled`: some ':'-separated entry of the setting names
      "package/canonicalName" of the locker service, ignoring case; false when the class
      name or the setting is missing. */
  function IsAccessibilityServiceEnabled(p: PermissionProbe): (r: bool)
    ensures r <==>
      && p.serviceCanonicalName.Some?
      && p.enabledAccessibilityServices.Some?
      && ServiceListed(p.enabledAccessibilityServices.value, ServiceId(p.packageName, p.serviceCanonicalName.value))
  {
    if p.serviceCanonicalName.None? || p.enabledAccessibilityServices.None? then false
    else
      var service := ServiceId(p.packageName, p.serviceCanonicalName.value);
      AnyEqualsIgnoreCase(Split(p.enabledAccessibilityServices.value, ':'), service)
  }

  /** An independent reading of the accessibility check: for an identifier without ':',
      it is listed exactly when ":id:" occurs in ":setting:", both lowercased. */
  lemma ServiceListedIsDelimitedSearch(setting: string, service: string)
    requires ':' !in service
    ensures ServiceListed(setting, service) <==>
      Contains(":" + Lower(setting) + ":", ":" + Lower(service) + ":")
  {
    var parts := Split(setting, ':');
    var lowered := LowerAll(parts);
    LowerJoin(parts, ':');
    assert Lower(setting) == Join(lowered, ':');
    forall k | 0 <= k < |lowered| ensures ':' !in lowered[k] {
      LowerKeepsNonLetter(parts[k], ':');
    }
    LowerKeepsNonLetter(service, ':');
    MemberIffDelimitedOccurrence(lowered, Lower(service), ':');
    assert ServiceListed(setting, service) <==>
      exists k :: 0 <= k < |lowered| && lowered[k] == Lower(service) by {
      if ServiceListed(setting, service) {
        var k :| 0 <= k < |parts| && EqualsIgnoreCase(parts[k], service);
        assert lowered[k] == Lower(service);
      }
      if exists k :: 0 <= k < |lowered| && lowered[k] == Lower(service) {
        var k :| 0 <= k < |lowered| && lowered[k] == Lower(service);
        assert EqualsIgnoreCase(parts[k], service);
      }
    }
  }

  /** `areAllPermissionsGranted`: battery exemption, overlay permission and the enabled
      accessibility service, the first two implied below Android M. */
  function AreAllPermissionsGranted(p: PermissionProbe): (r: bool)
    ensures r <==>
      && (p.sdkInt < VersionCodeM || (p.ignoringBatteryOptimizations && p.canDrawOverlays))
      && IsAccessibilityServiceEnabled(p)
  {
    IsIgnoringBatteryOptimizations(p) && HasOverlayPermission(p) && IsAccessibilityServiceEnabled(p)
  }

  // ---------------------------------------------------------------------------
  // Locking and unlocking from the list
  // ---------------------------------------------------------------------------

  /** The registry after the request, the success reported to the switch, and whether the
      permission screen was opened. */
  datatype ToggleResult = ToggleResult(store: Store, success: bool, openedPermissionScreen: bool)

  /** `checkPermissionsAndToggle`: locking needs every permission; unlocking always works. */
  function CheckPermissionsAndToggle(
    store: Store, packageName: string, isChecked: bool, probe: PermissionProbe): (r: ToggleResult)
    ensures r.success <==> !isChecked || AreAllPermissionsGranted(probe)
    ensures r.openedPermissionScreen <==> !r.success
    ensures r.success ==> IsAppLocked(r.store, packageName) == isChecked
    ensures !r.success ==> r.store == store
    ensures forall q :: q != packageName ==> (IsAppLocked(r.store, q) <==> IsAppLocked(store, q))
  {
    if isChecked then
      if AreAllPermissionsGranted(probe) then ToggleResult(AddLockedApp(store, packageName), true, false)
      else ToggleResult(store, false, true)
    else
      ToggleResult(RemoveLockedApp(store, packageName), true, false)
  }
}

=== FILE: numbers.dfy ===
/** Fixed-width integers of the JVM and the integer ceiling used by the countdown. */
module Numbers {

  /** Kotlin `Int`. */
  type Int32 = x: int | -0x8000_0000 <= x < 0x8000_0000

  /** Kotlin `Long`. */
  type Int64 = x: int | -0x8000_0000_0000_0000 <= x < 0x8000_0000_0000_0000

  /** `Math.ceil(a / (b as double))` computed exactly: the least `r` with `a <= b * r`. */
  function CeilDiv(a: int, b: int): (r: int)
    requires b > 0
    ensures b * (r - 1) < a <= b * r
  {
    -((-a) / b)
  }

  /** An `Int` of seconds times `1000L` always fits in a `Long`. */
  function SecondsToMillis(seconds: Int32): (millis: Int64)
    ensures millis / 1000 == seconds && millis % 1000 == 0
  {
    seconds * 1000
  }
}

=== FILE: overlay_service.dfy ===
/**
  One hold-to-unlock session: the overlay service from `onStartCommand` to `onDestroy`.
  Touches, countdown ticks, the timer's finish, the exit button, the delayed stop posted
  after a finish and the platform's `onDestroy` arrive as events; each event is one atomic
  step. `stopSelf` only asks for the teardown: until `onDestroy` arrives the timer and the
  posted stop keep running and their callbacks are still delivered.
*/
module OverlayService {
  import opened Wrappers
  import opened Numbers
  import Settings
  import opened AppLockerService

  /** The hold button's text: as inflated from the layout, blanked while held, "HOLD" after a release. */
  datatype ButtonLabel = LayoutLabel | Blank | HoldLabel

  /** The `countDownTimer` variable. */
  datatype Timer = NoTimer | Running | Cancelled | Finished

  datatype Session = Session(
    currentPackageName: Option<string>,
    appName: string,
    holdDurationSeconds: Int32,
    holdDurationMillis: Int64,
    dailyGoalMinutes: Int32,
    countdown: int,            // the number shown in the countdown text
    countdownVisible: bool,
    buttonLabel: ButtonLabel,
    buttonScale: real,         // scaleX == scaleY of the hold button
    timer: Timer,
    unlockSuccessful: bool,
    stopPending: bool,         // a `stopSelf` posted 200 ms after the timer finished, not yet run
    stopRequested: bool        // `stopSelf` has been called; `onDestroy` follows
  )

  /** Touch and timer callbacks delivered to a live session. */
  datatype Input =
    | Press                                    // MotionEvent.ACTION_DOWN on the hold button
    | Release                                  // MotionEvent.ACTION_UP on the hold button
    | Tick(millisUntilFinished: int)           // CountDownTimer.onTick
    | Finish                                   // CountDownTimer.onFinish
    | Exit                                     // the exit button
    | DelayedStop                              // the Handler's delayed `stopSelf`
    | Destroy                                  // Service.onDestroy after `stopSelf`

  /** After an input the session either lives on, possibly having sent the user to the home
      screen, or has been destroyed. */
  datatype Reaction = Live(session: Session, goHome: bool) | Destroyed(session: Session)

  /** The duration value that means "no per-app duration; use the global setting". */
  const UseDefaultDuration: Int32 := -1

  /** Effective hold duration in seconds: the per-app value unless it is the sentinel,
      then the hold-duration setting. */
  function ResolveHoldSeconds(stored: Int32, prefs: Settings.Preferences): (seconds: Int32)
    ensures stored != UseDefaultDuration ==> seconds == stored
    ensures stored == UseDefaultDuration ==> seconds == Settings.HoldDurationSeconds(prefs)
    // the sentinel survives only if the setting itself holds it
    ensures seconds == UseDefaultDuration ==> prefs.holdDuration == Some(UseDefaultDuration)
  {
    if stored == UseDefaultDuration then Settings.HoldDurationSeconds(prefs) else stored
  }

  /** The session invariant: until the session is asked to stop, a pending stop follows a
      finish that marked the unlock successful; the button is never smaller than its rest
      size nor more than doubled. */
  ghost predicate Valid(s: Session) {
    && (s.stopPending && !s.stopRequested ==> s.unlockSuccessful)
    && 1.0 <= s.buttonScale <= 2.0
    && s.holdDurationMillis == s.holdDurationSeconds * 1000
  }

  /** `onStartCommand`: read the intent's extras (absent after a sticky restart), resolve the
      duration through the registry's per-app lookup `durationOf`, show the full countdown. */
  function OnStartCommand(
    intent: Option<OverlayIntent>, durationOf: string -> Int32, prefs: Settings.Preferences): (s: Session)
    ensures Valid(s)
    ensures s.currentPackageName == (if intent.Some? then Some(intent.value.packageName) else None)
    ensures s.appName == (if intent.Some? then intent.value.appName else FallbackAppName)
    ensures s.holdDurationSeconds == ResolveHoldSeconds(durationOf(s.currentPackageName.GetOr("")), prefs)
    ensures s.countdown == s.holdDurationSeconds
    ensures s.timer == NoTimer && !s.unlockSuccessful && !s.stopPending && !s.stopRequested
  {
    var packageName := if intent.Some? then Some(intent.value.packageName) else None;
    var appName := if intent.Some? then intent.value.appName else FallbackAppName;
    var seconds := ResolveHoldSeconds(durationOf(packageName.GetOr("")), prefs);
    Session(
      packageName, appName, seconds, SecondsToMillis(seconds), Settings.DailyGoalMinutes(prefs),
      seconds, false, LayoutLabel, 1.0, NoTimer, false, false, false)
  }

  /** `countDownTimer?.cancel()`. */
  function Cancel(t: Timer): (r: Timer)
    ensures r != Running
    // a timer never started stays absent; any other is cancelled
    ensures r == NoTimer <==> t == NoTimer
  {
    if t == NoTimer then NoTimer else Cancelled
  }

  /** Whether the platform timer can deliver this tick: only while it runs, and only with
      a remaining time in (0, duration]. Any other tick is never delivered. */
  predicate Deliverable(s: Session, millisUntilFinished: int) {
    s.timer == Running && 0 < millisUntilFinished <= s.holdDurationMillis
  }

  /** The number shown on a tick: the remaining whole seconds rounded up, minus one. */
  function TickCountdown(millisUntilFinished: int): (c: int)
    ensures 1000 * c < millisUntilFinished <= 1000 * (c + 1)
  {
    CeilDiv(millisUntilFinished, 1000) - 1
  }

  /** Button scale on a tick: one plus the fraction of the hold already done. */
  function TickScale(millis: int, millisUntilFinished: int): (scale: real)
    requires 0 < millisUntilFinished <= millis
    ensures 1.0 <= scale < 2.0
  {
    var done := (millis - millisUntilFinished) as real;
    var total := millis as real;
    assert 0.0 <= done < total;
    var progress := done / total;
    assert progress * total == done;
    assert 0.0 <= progress < 1.0;
    1.0 + progress
  }

  /** One callback of the session. */
  function Handle(s: Session, input: Input): (r: Reaction)
    requires Valid(s)
    ensures r.Live? ==> Valid(r.session)
    // the session's app and hold duration never change
    ensures r.Live? ==>
      && r.session.currentPackageName == s.currentPackageName
      && r.session.appName == s.appName
      && r.session.holdDurationSeconds == s.holdDurationSeconds
      && r.session.holdDurationMillis == s.holdDurationMillis
    // a stop is posted only by a finish and consumed only by the delayed stop itself
    ensures input != Finish && input != DelayedStop ==> r.session.stopPending == s.stopPending
    // ticks leave the timer as it is
    ensures input.Tick? ==> r.session.timer == s.timer
    // only `onDestroy` ends the session, and only after `stopSelf`; it changes nothing itself
    ensures r.Destroyed? <==> input == Destroy && s.stopRequested
    ensures r.Destroyed? ==> r.session == s
    // only the exit button sends the user home
    ensures r.Live? ==> (r.goHome <==> input == Exit)
    // the stop is asked for by the exit button or a pending delayed stop, and never withdrawn
    ensures r.Live? ==>
      (r.session.stopRequested <==> s.stopRequested || input == Exit || (input == DelayedStop && s.stopPending))
    // the success flag is set by a finish, cleared by exit, and untouched otherwise
    ensures input != Finish && input != Exit ==> r.session.unlockSuccessful == s.unlockSuccessful
    // exit clears the flag but stops neither the timer nor a posted stop
    ensures input == Exit ==>
      !r.session.unlockSuccessful && r.session.timer == s.timer && r.session.stopPending == s.stopPending
    ensures input == DelayedStop && s.stopPending && !s.stopRequested ==> r.session.unlockSuccessful
    ensures input == Press ==> r.session.timer == Running && r.session.countdownVisible
    // a release stops the timer and restores the resting button and the full countdown
    ensures input == Release ==>
      && r.session.timer != Running
      && r.session.buttonScale == 1.0
      && r.session.buttonLabel == HoldLabel
      && r.session.countdown == s.holdDurationSeconds
    // a delivered tick shows ceil(ms / 1000) - 1: a value c with 1000 c < ms <= 1000 (c + 1)
    ensures input.Tick? && Deliverable(s, input.millisUntilFinished) ==>
      var c := r.session.countdown;
      && 1000 * c < input.millisUntilFinished <= 1000 * (c + 1)
      && 0 <= c <= s.holdDurationSeconds - 1
    // a finish shows zero and marks the unlock successful, with a stop posted, even after exit
    ensures input == Finish && s.timer == Running ==>
      r.session.countdown == 0 && r.session.unlockSuccessful && r.session.stopPending
    // ticks and finishes of a stopped, cancelled or finished timer, a delayed stop never
    // posted and an `onDestroy` never asked for change nothing
    ensures || (input.Tick? && !Deliverable(s, input.millisUntilFinished))
            || (input == Finish && s.timer != Running)
            || (input == DelayedStop && !s.stopPending)
            || (input == Destroy && !s.stopRequested) ==>
      r == Live(s, false)
  {
    match input
    case Press =>
      Live(s.(buttonLabel := Blank, countdownVisible := true, timer := Running), false)
    case Release =>
      Live(s.(timer := Cancel(s.timer), buttonScale := 1.0, buttonLabel := HoldLabel,
              countdown := s.holdDurationSeconds), false)
    case Tick(ms) =>
      if Deliverable(s, ms) then
        Live(s.(countdown := TickCountdown(ms), buttonScale := TickScale(s.holdDurationMillis, ms)), false)
      else
        Live(s, false)
    case Finish =>
      if s.timer == Running then
        Live(s.(countdown := 0, unlockSuccessful := true, stopPending := true, timer := Finished), false)
      else
        Live(s, false)
    case Exit =>
      Live(s.(unlockSuccessful := false, stopRequested := true), true)
    case DelayedStop =>
      if s.stopPending then Live(s.(stopPending := false, stopRequested := true), false) else Live(s, false)
    case Destroy =>
      if s.stopRequested then Destroyed(s) else Live(s, false)
  }

  /** `onDestroy`: whatever ended the session, the overlay flag drops; the grace marker is set
      to the session's package exactly when the unlock succeeded. */
  function OnDestroy(shared: SharedState, s: Session): (r: SharedState)
    ensures !r.isOverlayShowing
    ensures s.unlockSuccessful ==> r.lastUnlockedAppPackage == s.currentPackageName
    ensures !s.unlockSuccessful ==> r.lastUnlockedAppPackage == shared.lastUnlockedAppPackage
  {
    SharedState(if s.unlockSuccessful then s.currentPackageName else shared.lastUnlockedAppPackage, false)
  }

  /** A session fed a sequence of callbacks; nothing is delivered after `onDestroy`. */
  function RunSession(s: Session, inputs: seq<Input>): (r: Reaction)
    requires Valid(s)
    ensures r.Live? ==> Valid(r.session)
    ensures r.session.currentPackageName == s.currentPackageName
    decreases |inputs|
  {
    if |inputs| == 0 then Live(s, false)
    else
      match Handle(s, inputs[0])
      case Live(next, home) => if |inputs| == 1 then Live(next, home) else RunSession(next, inputs[1..])
      case Destroyed(last) => Destroyed(last)
  }

  /** Without the timer finishing, no sequence of presses, releases, ticks, exits, stops and
      teardowns unlocks the app: the session never marks success, so its teardown keeps the marker. */
  lemma {:induction false} NoUnlockWithoutFinish(s: Session, inputs: seq<Input>, shared: SharedState)
    requires Valid(s) && !s.unlockSuccessful
    requires forall k :: 0 <= k < |inputs| ==> inputs[k] != Finish
    ensures !RunSession(s, inputs).session.unlockSuccessful
    ensures OnDestroy(shared, RunSession(s, inputs).session).lastUnlockedAppPackage == shared.lastUnlockedAppPackage
    decreases |inputs|
  {
    if |inputs| > 1 {
      var r := Handle(s, inputs[0]);
      if r.Live? {
        NoUnlockWithoutFinish(r.session, inputs[1..], shared);
      }
    }
  }

  /** Once asked for, the teardown cannot be called off: whatever arrives before `onDestroy`,
      the session still waits for it, and the first `onDestroy` ends it. */
  lemma {:induction false} StopIsFinal(s: Session, inputs: seq<Input>)
    requires Valid(s) && s.stopRequested
    requires forall k :: 0 <= k < |inputs| ==> inputs[k] != Destroy
    ensures RunSession(s, inputs).Live? && RunSession(s, inputs).session.stopRequested
    ensures RunSession(s, inputs + [Destroy]).Destroyed?
    decreases |inputs|
  {
    if |inputs| > 0 {
      var r := Handle(s, inputs[0]);
      assert (inputs + [Destroy])[1..] == inputs[1..] + [Destroy];
      StopIsFinal(r.session, inputs[1..]);
    }
  }

  /** A hold that finished, or a session already asked to stop, is always torn down: whatever
      callbacks arrive first, the delayed stop and the `onDestroy` that follows end the
      session, and the teardown concerns the session's own package. */
  lemma {:induction false} FinishedHoldIsTornDown(s: Session, inputs: seq<Input>)
    requires Valid(s) && (s.stopPending || s.stopRequested)
    requires forall k :: 0 <= k < |inputs| ==> inputs[k] != Destroy
    ensures RunSession(s, inputs + [DelayedStop, Destroy]).Destroyed?
    ensures RunSession(s, inputs + [DelayedStop, Destroy]).session.currentPackageName == s.currentPackageName
    decreases |inputs|
  {
    if |inputs| == 0 {
      assert inputs + [DelayedStop, Destroy] == [DelayedStop, Destroy];
      assert [DelayedStop, Destroy][1..] == [Destroy];
    } else {
      var r := Handle(s, inputs[0]);
      assert (inputs + [DelayedStop, Destroy])[1..] == inputs[1..] + [DelayedStop, Destroy];
      FinishedHoldIsTornDown(r.session, inputs[1..]);
    }
  }

  /** Exit between the finish and the delayed stop goes home, and the teardown that follows
      revokes the unlock. */
  lemma ExitAfterFinishRevokes(s: Session, shared: SharedState)
    requires Valid(s) && s.timer == Running
    ensures var r := RunSession(s, [Finish, Exit]);
      && r.Live? && r.goHome && r.session.stopRequested
      && RunSession(r.session, [Destroy]).Destroyed?
      && OnDestroy(shared, r.session) == SharedState(shared.lastUnlockedAppPackage, false)
  {
  }

  /** A finished hold, left alone until the delayed stop and the teardown, unlocks the
      session's package. */
  lemma FinishThenDelayedStopUnlocks(s: Session, shared: SharedState)
    requires Valid(s) && s.timer == Running
    ensures var r := RunSession(s, [Finish, DelayedStop, Destroy]);
      && r.Destroyed?
      && OnDestroy(shared, r.session) == SharedState(s.currentPackageName, false)
  {
  }

  /** Exit cancels neither the timer nor the teardown's reading of the flag: a finish that
      is already due when the user presses exit runs before `onDestroy` and marks the unlock
      successful again, so the teardown records the unlock although the user left. */
  lemma ExitThenDueFinishUnlocks(s: Session, shared: SharedState)
    requires Valid(s) && s.timer == Running
    ensures var r := RunSession(s, [Exit, Finish, Destroy]);
      && r.Destroyed?
      && OnDestroy(shared, r.session) == SharedState(s.currentPackageName, false)
  {
  }
}

=== FILE: seqs.dfy ===
/** Order-preserving selection on sequences, the `List.filter` of the Kotlin source. */
module Seqs {

  /** `sub` can be obtained from `s` by deleting elements, keeping the order of the rest. */
  predicate IsSubsequence<T(==)>(sub: seq<T>, s: seq<T>)
    decreases |s|
  {
    if |sub| == 0 then true
    else if |s| == 0 then false
    else if sub[0] == s[0] then IsSubsequence(sub[1..], s[1..])
    else IsSubsequence(sub, s[1..])
  }

  /** The elements of `s` that satisfy `p`, in their original order. */
  function Filter<T(!new)>(s: seq<T>, p: T -> bool): (r: seq<T>)
    ensures |r| <= |s|
    ensures forall i :: 0 <= i < |r| ==> p(r[i]) && r[i] in s
    ensures forall i :: 0 <= i < |s| && p(s[i]) ==> s[i] in r
    ensures forall x :: multiset(r)[x] == (if p(x) then multiset(s)[x] else 0)
  {
    if |s| == 0 then []
    else
      assert s == [s[0]] + s[1..];
      if p(s[0]) then [s[0]] + Filter(s[1..], p)
      else Filter(s[1..], p)
  }

  lemma {:induction false} SubsequenceOfSelf<T>(s: seq<T>)
    ensures IsSubsequence(s, s)
    decreases |s|
  {
    if |s| > 0 {
      SubsequenceOfSelf(s[1..]);
    }
  }

  /** Filtering only deletes: the result is a subsequence of the input. */
  lemma {:induction false} FilterIsSubsequence<T(!new)>(s: seq<T>, p: T -> bool)
    ensures IsSubsequence(Filter(s, p), s)
    decreases |s|
  {
    if |s| > 0 {
      FilterIsSubsequence(s[1..], p);
      var rest := Filter(s[1..], p);
      if p(s[0]) {
        assert Filter(s, p) == [s[0]] + rest;
        assert ([s[0]] + rest)[1..] == rest;
      } else {
        SkipHead(rest, s);
      }
    }
  }

  /** A subsequence of the tail is a subsequence of the whole. */
  lemma {:induction false} SkipHead<T>(sub: seq<T>, s: seq<T>)
    requires |s| > 0
    requires IsSubsequence(sub, s[1..])
    ensures IsSubsequence(sub, s)
    decreases |sub| + |s|, 1
  {
    if |sub| > 0 && sub[0] == s[0] {
      DropHead(sub, s[1..]);
    }
  }

  /** Deleting the first element of a subsequence keeps it a subsequence. */
  lemma {:induction false} DropHead<T>(sub: seq<T>, t: seq<T>)
    requires |sub| > 0
    requires IsSubsequence(sub, t)
    ensures IsSubsequence(sub[1..], t)
    decreases |sub| + |t| + 1, 0
  {
    if sub[0] == t[0] {
      SkipHead(sub[1..], t);
    } else {
      DropHead(sub, t[1..]);
      SkipHead(sub[1..], t);
    }
  }

  /** When every element passes, filtering returns the sequence unchanged. */
  lemma {:induction false} FilterKeepsAll<T(!new)>(s: seq<T>, p: T -> bool)
    requires forall i :: 0 <= i < |s| ==> p(s[i])
    ensures Filter(s, p) == s
    decreases |s|
  {
    if |s| > 0 {
      FilterKeepsAll(s[1..], p);
    }
  }
}

=== FILE: settings.dfy ===
/**
  The values the settings screen stores in the "AppSettings" preference file, as read by
  the enforcement code. A key that was never written reads as the default its reader passes.
*/
module Settings {
  import opened Wrappers
  import opened Numbers

  datatype Preferences = Preferences(
    overlay: Option<bool>,              // KEY_OVERLAY
    holdDuration: Option<Int32>,        // KEY_HOLD_DURATION, seconds
    dailyGoal: Option<Int32>,           // KEY_DAILY_GOAL, minutes (displayed only)
    lockNewlyInstalled: Option<bool>    // KEY_NEWLY_INSTALLED
  )

  /** Nothing written yet: every reader sees its default. */
  const Fresh := Preferences(None, None, None, None)

  const DefaultHoldDurationSeconds: Int32 := 5
  const DefaultDailyGoalMinutes: Int32 := 10

  function OverlayEnabled(p: Preferences): bool {
    p.overlay.GetOr(true)
  }

  function HoldDurationSeconds(p: Preferences): Int32 {
    p.holdDuration.GetOr(DefaultHoldDurationSeconds)
  }

  function DailyGoalMinutes(p: Preferences): Int32 {
    p.dailyGoal.GetOr(DefaultDailyGoalMinutes)
  }

  function LockNewlyInstalled(p: Preferences): bool {
    p.lockNewlyInstalled.GetOr(true)
  }
}

=== FILE: text.dfy ===
/**
  The string operations the app relies on from the Kotlin standard library:
  `Char.isWhitespace`, `String.trim`, `lowercase`, `contains`, `equals(ignoreCase = true)`,
  `compareTo`, and splitting a string at a delimiter character.
*/
module Text {

  /** Kotlin's `Char.isWhitespace`: the control characters TAB..CR and FS..US, plus every
      Unicode space, line and paragraph separator (including the non-breaking ones). */
  predicate IsWhitespace(c: char) {
    || '\t' <= c <= '\r'
    || '\U{1C}' <= c <= '\U{1F}'
    || c == ' '
    || c == '\U{A0}'
    || c == '\U{1680}'
    || '\U{2000}' <= c <= '\U{200A}'
    || c == '\U{2028}'
    || c == '\U{2029}'
    || c == '\U{202F}'
    || c == '\U{205F}'
    || c == '\U{3000}'
  }

  // ---------------------------------------------------------------------------
  // Case mapping (ASCII letters only)
  // ---------------------------------------------------------------------------

  function LowerChar(c: char): (r: char)
    ensures 'A' <= c <= 'Z' ==> 'a' <= r <= 'z'
    ensures !('A' <= c <= 'Z') ==> r == c
  {
    if 'A' <= c <= 'Z' then (c as int - 'A' as int + 'a' as int) as char else c
  }

  /** `lowercase(Locale.ROOT)`, restricted to the ASCII letters. */
  function Lower(s: string): (r: string)
    ensures |r| == |s|
    ensures forall i :: 0 <= i < |s| ==> r[i] == LowerChar(s[i])
    ensures forall i :: 0 <= i < |r| ==> !('A' <= r[i] <= 'Z')
  {
    seq(|s|, i requires 0 <= i < |s| => LowerChar(s[i]))
  }

  /** Each string lowercased. */
  function LowerAll(parts: seq<string>): (r: seq<string>)
    ensures |r| == |parts|
    ensures forall k :: 0 <= k < |parts| ==> r[k] == Lower(parts[k])
  {
    seq(|parts|, k requires 0 <= k < |parts| => Lower(parts[k]))
  }

  /** A character that is not a letter neither appears nor disappears under lowercasing. */
  lemma LowerKeepsNonLetter(s: string, d: char)
    requires !('A' <= d <= 'Z') && !('a' <= d <= 'z')
    ensures d in Lower(s) <==> d in s
  {
  }

  /** Lowercasing a join of parts is joining the lowercased parts, for a non-letter delimiter. */
  lemma {:induction false} LowerJoin(parts: seq<string>, d: char)
    requires !('A' <= d <= 'Z')
    ensures Lower(Join(parts, d)) == Join(LowerAll(parts), d)
    decreases |parts|
  {
    if |parts| > 1 {
      LowerJoin(parts[1..], d);
      assert LowerAll(parts)[1..] == LowerAll(parts[1..]);
      assert Lower(parts[0] + [d] + Join(parts[1..], d)) == Lower(parts[0]) + [d] + Lower(Join(parts[1..], d));
    }
  }

  /** `a.equals(b, ignoreCase = true)`. */
  predicate EqualsIgnoreCase(a: string, b: string)
    ensures EqualsIgnoreCase(a, b) <==>
      |a| == |b| && forall i :: 0 <= i < |a| ==> LowerChar(a[i]) == LowerChar(b[i])
  {
    Lower(a) == Lower(b)
  }

  // ---------------------------------------------------------------------------
  // trim
  // ---------------------------------------------------------------------------

  /** Number of whitespace characters at the start of `s`. */
  function LeadingBlanks(s: string): (n: nat)
    ensures n <= |s|
    ensures forall k :: 0 <= k < n ==> IsWhitespace(s[k])
    ensures n < |s| ==> !IsWhitespace(s[n])
  {
    if |s| > 0 && IsWhitespace(s[0]) then 1 + LeadingBlanks(s[1..]) else 0
  }

  /** Number of whitespace characters at the end of `s`. */
  function TrailingBlanks(s: string): (n: nat)
    ensures n <= |s|
    ensures forall k :: |s| - n <= k < |s| ==> IsWhitespace(s[k])
    ensures n < |s| ==> !IsWhitespace(s[|s| - 1 - n])
  {
    if |s| > 0 && IsWhitespace(s[|s| - 1]) then 1 + TrailingBlanks(s[..|s| - 1]) else 0
  }

  /** Kotlin's `String.trim()`: the infix of `s` that neither starts nor ends with
      whitespace, with only whitespace cut away on either side. */
  function Trim(s: string): (r: string)
    ensures var lo := LeadingBlanks(s);
      && lo + |r| <= |s|
      && r == s[lo..lo + |r|]
      && (forall k :: lo + |r| <= k < |s| ==> IsWhitespace(s[k]))
    ensures |r| > 0 ==> !IsWhitespace(r[0]) && !IsWhitespace(r[|r| - 1])
    ensures r == [] <==> forall k :: 0 <= k < |s| ==> IsWhitespace(s[k])
  {
    var lo := LeadingBlanks(s);
    var tail := TrailingBlanks(s);
    if lo == |s| then ""
    else
      assert lo < |s| - tail;
      s[lo..|s| - tail]
  }

  /** A string of whitespace only trims to the empty string. */
  lemma TrimBlank(s: string)
    requires forall k :: 0 <= k < |s| ==> IsWhitespace(s[k])
    ensures Trim(s) == ""
  {
  }

  // ---------------------------------------------------------------------------
  // contains
  // ---------------------------------------------------------------------------

  /** `needle` occurs in `hay` starting at index `i`. */
  predicate OccursAt(hay: string, needle: string, i: int) {
    0 <= i && i + |needle| <= |hay| && hay[i..i + |needle|] == needle
  }

  /** Kotlin's `hay.contains(needle)`: some position of `hay` starts an occurrence of `needle`. */
  function Contains(hay: string, needle: string): (r: bool)
    ensures r <==> exists i :: OccursAt(hay, needle, i)
    decreases |hay|
  {
    if |needle| <= |hay| && hay[..|needle|] == needle then
      assert OccursAt(hay, needle, 0);
      true
    else if |hay| == 0 then
      assert forall i :: !OccursAt(hay, needle, i);
      false
    else
      var r := Contains(hay[1..], needle);
      assert forall i :: OccursAt(hay[1..], needle, i) <==> OccursAt(hay, needle, i + 1);
      assert forall i :: OccursAt(hay, needle, i) ==> i == 0 || OccursAt(hay[1..], needle, i - 1);
      r
  }

  /** Every string contains the empty string. */
  lemma ContainsEmpty(hay: string)
    ensures Contains(hay, "")
  {
  }

  // ---------------------------------------------------------------------------
  // Splitting at a delimiter
  // ---------------------------------------------------------------------------

  /** Index of the first `d` in `s`, or `|s|` when there is none. */
  function IndexOf(s: string, d: char): (i: nat)
    ensures i <= |s|
    ensures i < |s| ==> s[i] == d
    ensures forall k :: 0 <= k < i ==> s[k] != d
  {
    if |s| == 0 || s[0] == d then 0 else 1 + IndexOf(s[1..], d)
  }

  /** The parts glued back together with `d` between neighbours. */
  function Join(parts: seq<string>, d: char): string
    decreases |parts|
  {
    if |parts| == 0 then ""
    else if |parts| == 1 then parts[0]
    else parts[0] + [d] + Join(parts[1..], d)
  }

  /** The maximal `d`-free segments of `s`, in order; `n` delimiters give `n + 1` segments. */
  function Split(s: string, d: char): (parts: seq<string>)
    ensures |parts| >= 1
    ensures forall k :: 0 <= k < |parts| ==> d !in parts[k]
    ensures Join(parts, d) == s
    decreases |s|
  {
    var i := IndexOf(s, d);
    if i == |s| then [s]
    else
      var rest := Split(s[i + 1..], d);
      assert s == s[..i] + [d] + s[i + 1..];
      [s[..i]] + rest
  }

  /** Splitting a join of `d`-free parts gives the parts back. */
  lemma {:induction false} SplitJoin(parts: seq<string>, d: char)
    requires |parts| >= 1
    requires forall k :: 0 <= k < |parts| ==> d !in parts[k]
    ensures Split(Join(parts, d), d) == parts
    decreases |parts|
  {
    var s := Join(parts, d);
    if |parts| == 1 {
      assert IndexOf(s, d) == |s|;
    } else {
      var tail := Join(parts[1..], d);
      assert s == parts[0] + [d] + tail;
      assert IndexOf(s, d) == |parts[0]| by {
        assert s[|parts[0]|] == d;
        assert forall k :: 0 <= k < |parts[0]| ==> s[k] == parts[0][k];
      }
      assert s[..|parts[0]|] == parts[0];
      assert s[|parts[0]| + 1..] == tail;
      SplitJoin(parts[1..], d);
    }
  }

  /** In `d p0 tail` with `tail` starting at a delimiter, `d t d` occurs at the front
      exactly when `t` is `p0`. */
  lemma OccursAtFront(p0: string, tail: string, t: string, d: char)
    requires d !in p0 && d !in t
    requires |tail| > 0 && tail[0] == d
    ensures OccursAt([d] + p0 + tail, [d] + t + [d], 0) <==> t == p0
  {
    var h := [d] + p0 + tail;
    var n := [d] + t + [d];
    if t == p0 {
      assert h[..|n|] == n;
    }
    if OccursAt(h, n, 0) {
      assert h[..|n|] == n;
      // the closing delimiter of `n` cannot fall inside `p0`, nor can `t` run past `p0`
      assert forall m :: 1 <= m <= |p0| ==> h[m] == p0[m - 1] != d;
      assert forall m :: 1 <= m <= |t| ==> n[m] == t[m - 1] != d;
      assert h[|t| + 1] == n[|t| + 1] == d;
      assert |t| >= |p0|;
      assert h[|p0| + 1] == d;
      assert |p0| >= |t|;
      assert forall k :: 0 <= k < |t| ==> t[k] == n[k + 1] == h[k + 1] == p0[k];
    }
  }

  /** Past the front, an occurrence of `d t d` in `d p0 tail` lies wholly inside `tail`. */
  lemma OccursPastFront(p0: string, tail: string, t: string, d: char, i: int)
    requires d !in p0
    requires i > 0
    ensures OccursAt([d] + p0 + tail, [d] + t + [d], i) <==>
      i >= |p0| + 1 && OccursAt(tail, [d] + t + [d], i - |p0| - 1)
  {
    var h := [d] + p0 + tail;
    var n := [d] + t + [d];
    var off := |p0| + 1;
    if OccursAt(h, n, i) {
      assert h[i] == n[0] == d;
      assert forall m :: 1 <= m <= |p0| ==> h[m] == p0[m - 1] != d;
      assert i >= off;
      assert h[i..i + |n|] == tail[i - off..i - off + |n|];
    }
    if i >= off && OccursAt(tail, n, i - off) {
      assert h[i..i + |n|] == tail[i - off..i - off + |n|];
    }
  }

  /** A `d`-free `t` is one of the `d`-free parts exactly when `d t d` occurs in the
      parts joined with `d` and wrapped in `d`. */
  lemma {:induction false} MemberIffDelimitedOccurrence(parts: seq<string>, t: string, d: char)
    requires |parts| >= 1
    requires forall k :: 0 <= k < |parts| ==> d !in parts[k]
    requires d !in t
    ensures (exists k :: 0 <= k < |parts| && parts[k] == t) <==>
      Contains([d] + Join(parts, d) + [d], [d] + t + [d])
    decreases |parts|
  {
    var n := [d] + t + [d];
    var p0 := parts[0];
    var tail := if |parts| == 1 then [d] else [d] + Join(parts[1..], d) + [d];
    assert [d] + Join(parts, d) + [d] == [d] + p0 + tail;
    var h := [d] + p0 + tail;
    OccursAtFront(p0, tail, t, d);
    forall i | i > 0 ensures OccursAt(h, n, i) <==> i >= |p0| + 1 && OccursAt(tail, n, i - |p0| - 1) {
      OccursPastFront(p0, tail, t, d, i);
    }
    if |parts| == 1 {
      assert !Contains(tail, n);
    } else {
      MemberIffDelimitedOccurrence(parts[1..], t, d);
      assert (exists k :: 0 <= k < |parts| && parts[k] == t) <==>
        (p0 == t || exists k :: 0 <= k < |parts[1..]| && parts[1..][k] == t) by {
        if exists k :: 0 <= k < |parts| && parts[k] == t {
          var k :| 0 <= k < |parts| && parts[k] == t;
          if k > 0 {
            assert parts[1..][k - 1] == t;
          }
        }
        if exists k :: 0 <= k < |parts[1..]| && parts[1..][k] == t {
          var k :| 0 <= k < |parts[1..]| && parts[1..][k] == t;
          assert parts[k + 1] == t;
        }
      }
    }
    if Contains(h, n) {
      var i :| OccursAt(h, n, i);
      if i > 0 {
        assert OccursAt(tail, n, i - |p0| - 1);
      }
    }
    if Contains(tail, n) {
      var j :| OccursAt(tail, n, j);
      assert OccursAt(h, n, j + |p0| + 1);
    }
  }

  // ---------------------------------------------------------------------------
  // Lexicographic order (`String.compareTo`)
  // ---------------------------------------------------------------------------

  /** The UTF-16 encoding of one character: one code unit inside the Basic Multilingual
      Plane, a high and a low surrogate above it. */
  function CodeUnits(c: char): (u: seq<int>)
    ensures 1 <= |u| <= 2
    ensures |u| == 1 <==> (c as int) < 0x1_0000
    ensures |u| == 2 ==> 0xD800 <= u[0] <= 0xDBFF && 0xDC00 <= u[1] <= 0xDFFF
  {
    var v := c as int;
    if v < 0x1_0000 then [v]
    else [0xD800 + (v - 0x1_0000) / 0x400, 0xDC00 + (v - 0x1_0000) % 0x400]
  }

  /** The UTF-16 code units of a string, as a JVM `String` stores them. */
  function Utf16(s: string): seq<int>
    decreases |s|
  {
    if |s| == 0 then [] else CodeUnits(s[0]) + Utf16(s[1..])
  }

  /** Lexicographic order on code-unit sequences, a proper prefix first. */
  predicate UnitsLe(a: seq<int>, b: seq<int>)
    decreases |a|
  {
    |a| == 0 || (|b| > 0 && (a[0] < b[0] || (a[0] == b[0] && UnitsLe(a[1..], b[1..]))))
  }

  /** Where a character falls in code-unit order: characters below the surrogate block
      first, then every supplementary character (its high surrogate comes next), then the
      rest of the Basic Multilingual Plane. */
  function CodeUnitRank(c: char): int {
    var v := c as int;
    if v < 0xD800 then v else if v < 0x1_0000 then v + 0x11_0000 else v
  }

  /** `a.compareTo(b) <= 0`: the first differing character decides by code-unit rank,
      and a proper prefix comes first. */
  predicate LexLe(a: string, b: string)
    decreases |a|
  {
    |a| == 0 ||
    (|b| > 0 && (CodeUnitRank(a[0]) < CodeUnitRank(b[0]) || (a[0] == b[0] && LexLe(a[1..], b[1..]))))
  }

  lemma {:induction false} UnitsLeCommonPrefix(p: seq<int>, u: seq<int>, v: seq<int>)
    ensures UnitsLe(p + u, p + v) <==> UnitsLe(u, v)
    decreases |p|
  {
    if |p| > 0 {
      assert (p + u)[1..] == p[1..] + u && (p + v)[1..] == p[1..] + v;
      UnitsLeCommonPrefix(p[1..], u, v);
    } else {
      assert p + u == u && p + v == v;
    }
  }

  /** Two different characters are ordered by their first differing code unit, which lies
      within their own encodings, and that order is the order of their ranks. */
  lemma CodeUnitsDecide(x: char, y: char, u: seq<int>, v: seq<int>)
    requires x != y
    ensures UnitsLe(CodeUnits(x) + u, CodeUnits(y) + v) <==> CodeUnitRank(x) < CodeUnitRank(y)
  {
    var a, b := CodeUnits(x) + u, CodeUnits(y) + v;
    var vx, vy := x as int, y as int;
    if vx >= 0x1_0000 && vy >= 0x1_0000 {
      var dx, dy := vx - 0x1_0000, vy - 0x1_0000;
      assert dx == 0x400 * (dx / 0x400) + dx % 0x400;
      assert dy == 0x400 * (dy / 0x400) + dy % 0x400;
      if dx / 0x400 == dy / 0x400 {
        assert a[1..][0] == 0xDC00 + dx % 0x400 && b[1..][0] == 0xDC00 + dy % 0x400;
      }
    }
  }

  /** `LexLe` is exactly `String.compareTo`'s order: lexicographic on UTF-16 code units. */
  lemma {:induction false} LexLeIsCodeUnitOrder(a: string, b: string)
    ensures LexLe(a, b) <==> UnitsLe(Utf16(a), Utf16(b))
    decreases |a|
  {
    if |a| > 0 && |b| > 0 {
      if a[0] == b[0] {
        UnitsLeCommonPrefix(CodeUnits(a[0]), Utf16(a[1..]), Utf16(b[1..]));
        LexLeIsCodeUnitOrder(a[1..], b[1..]);
      } else {
        CodeUnitsDecide(a[0], b[0], Utf16(a[1..]), Utf16(b[1..]));
      }
    }
  }

  /** A supplementary character sorts before the top of the Basic Multilingual Plane,
      although its code point is larger. */
  lemma SurrogatesSortBeforeHighPlane()
    ensures LexLe("\U{1F600}", "\U{FF26}") && !LexLe("\U{FF26}", "\U{1F600}")
  {
  }

  lemma {:induction false} LexLeReflexive(a: string)
    ensures LexLe(a, a)
    decreases |a|
  {
    if |a| > 0 {
      LexLeReflexive(a[1..]);
    }
  }

  lemma {:induction false} LexLeTotal(a: string, b: string)
    ensures LexLe(a, b) || LexLe(b, a)
    decreases |a|
  {
    if |a| > 0 && |b| > 0 && a[0] == b[0] {
      LexLeTotal(a[1..], b[1..]);
    }
  }

  lemma {:induction false} LexLeTransitive(a: string, b: string, c: string)
    requires LexLe(a, b) && LexLe(b, c)
    ensures LexLe(a, c)
    decreases |a|
  {
    if |a| > 0 && a[0] == b[0] && b[0] == c[0] {
      LexLeTransitive(a[1..], b[1..], c[1..]);
    }
  }
}

=== FILE: wrappers.dfy ===
/** The nullable values of the Kotlin source (`String?`, `Intent?`, ...) as an option type. */
module Wrappers {

  datatype Option<+T> = None | Some(value: T) {

    /** Kotlin's elvis operator `x ?: default`. */
    function GetOr(default: T): T {
      match this
      case Some(v) => v
      case None => default
    }
  }
}
